=== FILE: README.md ===
# Superblock logic of a toy Unix-like file system, in Dafny

The file system keeps its state in one 1024-byte superblock. The superblock holds:

- a free bitmap of one bit per block, 128 blocks, where 0 means free;
- a table of 126 eight-byte inode records. Each record is `name[5]`, `used_size`, `start_block` and `dir_parent`.

Two of the record bytes are bit-packed:

- In `used_size`, the top bit is the in-use flag and the low seven bits are the size in blocks.
- In `dir_parent`, the top bit is the directory flag and the low seven bits are the parent's slot index. Index 126 is reserved as invalid, and 127 stands for the root directory, which has no slot of its own.

A file occupies a contiguous run of blocks. A directory has size 0 and start block 0.

The model covers:

- the field decoders and encoders;
- the free bitmap, both decoded and in its 16-byte stored form;
- the six-rule consistency checker;
- the first-fit allocator;
- name trimming;
- the create, delete, change-directory and mount operations over the table;
- the stored layout of the superblock.

Create, delete and cd are pure functions from a `FileSystem` value (a superblock plus the current directory) to a `Result`. Mount is a function from a decoded `Superblock` to a `Result`. Error paths are modelled: a full table, a duplicate name, no room, a missing name, and an inconsistent disk.

Modules, in dependency order:

- `Bytes`: unsigned bytes as the values 0 to 255. Bit j of a byte is its j-th binary digit, so the source's masks `| (1 << k)`, `& ~(1 << k)`, `& 0x80` and `& 0x7f` become setting a digit, clearing a digit, "at least 128" and "mod 128".
- `Errors`: `Option`, `Result` and the error kinds.
- `Layout`: the constants, the record, the decoders and encoders, and C-string names.
- `FreeBitmap`: the decoded bitmap, range updates, and the byte form with its round trips.
- `Whitespace`: `trim`.
- `Checker`: the six rules, the reported code, and a scanning method proved equal to it.
- `Allocator`: the first-fit search, as a reference function and as the one-pass scan.
- `Operations`: create, delete, cd and mount.
- `Preservation`: consistency is preserved, and the round trips between operations.
- `Codec`: the 1024-byte stored form and its round trips.
- `AsWritten`: for each place where the source goes wrong, the operation with that defect as written, and a disk that shows the effect (see Findings). Only the defect under study follows the source. The rest is shared with the corrected model: these functions read the decoded one-bit-per-block bitmap, free blocks with `MarkRange`, look names up in the listing derived from the table rather than in the stored map, and reuse the corrected `Cd` for "." and "..".

Where the source's behaviour is evidently unintended, the operations in `Operations` implement the intended behaviour. `AsWritten` keeps the code as written next to them.

## Model

| member | source | states |
|---|---|---|
| Bytes.TopBit | FileSystem.cpp:47-68 | the `0x80` flag of a byte is set exactly for the values from 128 up, and its low seven bits, `& 0x7f`, are worth the value mod 128 |
| Bytes.SetBit | FileSystem.cpp:42-45 | or-ing in `1 << k` sets bit k and leaves the other seven bits as they were |
| Bytes.ClearBit | FileSystem.cpp:36-40 | and-ing with `~(1 << k)` clears bit k and leaves the other seven bits as they were |
| Layout.ParentCode | FileSystem.cpp:63-68 | the seven-bit code of a parent reference decodes back to that parent; 127 is the root |
| Layout.EncodeUsedSize | FileSystem.cpp:300-301 | a new entry's `used_size` reads as in use, with exactly the requested size |
| Layout.EncodeDirParent | FileSystem.cpp:304-309 | a new entry's `dir_parent` carries the directory flag exactly for a directory and decodes to the current directory |
| Layout.CName | FileSystem.cpp:150 | the string a name field holds is NUL-free, is a prefix of the field, and stops at the first NUL or at the field's end |
| Layout.CopyName | FileSystem.cpp:299 | after `strcpy` the field reads back as exactly the copied name; its first byte is 0 exactly when the name is empty |
| FreeBitmap.SetBlock | FileSystem.cpp:36-45 | marking one block changes that block only; a block past the end changes nothing |
| FreeBitmap.MarkRange | FileSystem.cpp:315-318 | every block of the range gets the new mark, and every other block keeps its mark |
| FreeBitmap.UnpackPack | FileSystem.cpp:31-34 | the 16-byte stored form of a bitmap decodes back to the same bitmap |
| FreeBitmap.PackUnpack | FileSystem.cpp:31-34 | every 16-byte stored form is the packing of the bitmap it decodes to |
| FreeBitmap.SetBlockUsedBytes | FileSystem.cpp:42-45 | setting block i's bit in the stored bytes marks block i used and leaves every other block as it was |
| FreeBitmap.SetBlockFreeBytes | FileSystem.cpp:36-40 | clearing block i's bit in the stored bytes marks block i free and leaves every other block as it was |
| FreeBitmap.AsWrittenAddressingLosesBlocks | FileSystem.cpp:31-45 | with the byte index/16 and a mask shifted by the whole index rather than index % 8 and then truncated to eight bits, blocks 1 and 9 read the same bit, and marking block 9 used leaves it reading free |
| Whitespace.Trim | FileSystem.cpp:236-242 | the result is a contiguous slice of the input with only white space before and after it, and has no white space at either end |
| Whitespace.TrimIdentity | FileSystem.cpp:236-242 | a string with no white space at either end is left unchanged |
| Whitespace.TrimIdempotent | FileSystem.cpp:236-242 | trimming twice is the same as trimming once |
| Whitespace.TrimEmpty | FileSystem.cpp:236-242 | the result is empty exactly when the input is all white space |
| Checker.FirstFailing | FileSystem.cpp:97-204 | the reported code is 0 exactly when all six rules hold; otherwise it is the number of the first rule that fails, and every earlier rule holds |
| Checker.ConsistentIsZero | FileSystem.cpp:97-204 | a superblock is consistent exactly when the checker reports 0 |
| Checker.ConsistencyCheck | FileSystem.cpp:97-204 | the six scans, run in order and stopping at the first violation, return exactly the first failing rule's code |
| Checker.CheckAllocation | FileSystem.cpp:104-127 | the block-by-block scan accepts exactly when every block of every in-use range is marked used and no block lies in two ranges |
| Checker.CheckNames | FileSystem.cpp:138-156 | the scan with a set of seen keys accepts exactly when no two in-use entries share a parent and a name |
| Checker.CheckSlots | FileSystem.cpp:158-201 | each per-slot scan (rules 3 to 6) accepts exactly when its rule holds for every slot |
| Checker.UncoveredBlockIgnored | FileSystem.cpp:128-133 | re-marking a block that no in-use range covers never changes the reported code |
| Allocator.FirstFitFrom | FileSystem.cpp:271-294 | the result is the lowest start at or after `from` of a free run of the requested length; none is found exactly when no such run exists |
| Allocator.FirstFit | FileSystem.cpp:271-294 | the result is the lowest start from block 1 of a free run of the requested length that fits on the disk; none is found exactly when no run exists |
| Allocator.FindContiguousFree | FileSystem.cpp:271-294 | the one-pass scan with a run counter finds exactly the first-fit start |
| Operations.ChildrenFrom | FileSystem.cpp:460-464 | the result holds exactly the in-use children of the directory from slot k on, in increasing slot order |
| Operations.Listing | FileSystem.cpp:460-464 | the current directory's entries are exactly the in-use slots whose parent index is the current directory's |
| Operations.FindFrom | FileSystem.cpp:266-269 | the result is the lowest slot holding an in-use entry of the directory with that name; none is found exactly when there is no such slot |
| Operations.FirstUnusedFrom | FileSystem.cpp:248-257 | the result is the lowest unused slot; none is found exactly when every slot is in use |
| Operations.NewEntry | FileSystem.cpp:299-309 | the record create writes decodes to in use, with the given size, start, parent and name, and is a directory exactly when the size is 0 |
| Operations.Create | FileSystem.cpp:244-312 | the table-full error fires exactly when every slot is in use; the only errors are table full, name exists and no room; on success only the lowest unused slot changes, the new entry is correct, and a file gets the first-fit run, now marked used |
| Operations.CreateNameExists | FileSystem.cpp:248-269 | create refuses with NameExists exactly when the table has a free slot and the current directory already holds the trimmed name |
| Operations.CreateNoSpace | FileSystem.cpp:248-297 | create refuses with NoSpace exactly when the table has a free slot, the name is new, the size is not 0, and no free run of that many blocks exists |
| Operations.Remove | FileSystem.cpp:314-324 | the slot becomes all zero; a file's blocks are freed and every other block keeps its mark |
| Operations.DeleteChildren | FileSystem.cpp:326-354 | the recursive delete only clears slots and frees blocks; it frees exactly the blocks of the files it cleared, leaves no in-use child of the directory, and clears only entries below it |
| Operations.Delete | FileSystem.cpp:356-373 | a name not in the current directory gives FileNotFound; otherwise the lowest match is deleted: a file's slot and blocks only, or a directory with everything below it |
| Operations.Cd | FileSystem.cpp:416-467 | "." stays; ".." at the root stays; ".." elsewhere moves to the parent; any other name moves to the lowest directory of that name in the current directory, or gives DirNotFound when there is none; the superblock never changes |
| Operations.Mount | FileSystem.cpp:206-234 | the superblock is installed, at the root, exactly when it is consistent; otherwise the error carries the checker's code, 1 to 6 |
| Preservation.EmptyDiskConsistent | FileSystem.cpp:97-204 | the all-zero disk passes every rule and mounts |
| Preservation.CreatePreservesConsistency | FileSystem.cpp:244-312 | a successful create of a non-empty name on a consistent disk leaves it consistent, with a valid current directory |
| Preservation.ClearingKeepsConsistency | FileSystem.cpp:314-354 | clearing slots and freeing exactly their files' blocks keeps a consistent disk consistent, as long as no new orphan appears |
| Preservation.ConsistentNoEntryUnderFile | FileSystem.cpp:187-201 | on a consistent disk, no in-use entry sits under a slot that is not a directory |
| Preservation.DeletePreservesConsistency | FileSystem.cpp:356-373 | a successful delete on a consistent disk leaves it consistent |
| Preservation.DeleteNoChildren | FileSystem.cpp:326-354 | deleting under a directory with no children from slot k on changes nothing |
| Preservation.CreateDeleteRoundTrip | FileSystem.cpp:244-373 | deleting what was just created gives back the original disk, with the slot it took reset to all zero bytes |
| Preservation.CdIntoThenUp | FileSystem.cpp:416-467 | entering a directory and then ".." returns to the starting state |
| Preservation.CdPreservesValid | FileSystem.cpp:416-467 | cd on a consistent disk keeps the current directory the root or an in-use directory |
| Preservation.MountValid | FileSystem.cpp:206-234 | a mounted disk is consistent and at the root |
| Codec.EncodeInode | FileSystem.cpp:477-480 | a record is stored as eight bytes: the five name bytes, then `used_size`, `start_block` and `dir_parent` |
| Codec.DecodeInode | FileSystem.cpp:477-480 | eight stored bytes read as the record with those fields |
| Codec.DecodeEncodeInode | FileSystem.cpp:477-480 | reading a stored record gives the record back |
| Codec.EncodeDecodeInode | FileSystem.cpp:477-480 | every eight bytes are the stored form of the record they read as |
| Codec.EncodeTable | FileSystem.cpp:473 | record i of the table fills bytes 8i to 8i+7 |
| Codec.DecodeTable | FileSystem.cpp:473 | record i is read from bytes 8i to 8i+7 |
| Codec.DecodeEncodeTable | FileSystem.cpp:473 | reading the stored table gives the table back |
| Codec.EncodeDecodeTable | FileSystem.cpp:473 | every multiple of eight bytes is the stored form of the table it reads as |
| Codec.EncodeHeader | FileSystem.cpp:469-484 | the stored superblock is 1024 bytes: the packed bitmap, then the 126 records |
| Codec.DecodeHeader | FileSystem.cpp:469-484 | exactly the 1024-byte inputs are read, and the bitmap read is the one the first 16 bytes pack |
| Codec.DecodeEncodeHeader | FileSystem.cpp:469-484 | reading back a written superblock gives the superblock |
| Codec.EncodeDecodeHeader | FileSystem.cpp:469-484 | every 1024-byte block is the stored form of the superblock it reads as |
| AsWritten.CreateAsWritten | FileSystem.cpp:244-312 | create as written fills the lowest unused slot with the scan's start byte and never touches the bitmap |
| AsWritten.CreateLeavesRangeFree | FileSystem.cpp:299-311 | a three-block file created as written leaves the disk failing rule 1; the corrected create leaves it consistent |
| AsWritten.CreateDirectoryStartsAtOne | FileSystem.cpp:271-303 | a directory created as written on a blank disk gets start block 1 and fails rule 5; the corrected create leaves the disk consistent |
| AsWritten.CreateDuplicateName | FileSystem.cpp:266-269 | creating one name twice as written breaks rule 2; the corrected create refuses it with NameExists |
| AsWritten.LastWithStart | FileSystem.cpp:330-335 | the result is the last slot whose start block is s; none is found exactly when no slot has start block s |
| AsWritten.DeleteAsWritten | FileSystem.cpp:314-373 | delete as written never changes the table and only ever frees blocks |
| AsWritten.DeleteFileKeepsSlot | FileSystem.cpp:314-324 | deleting a file as written keeps its slot in use and fails rule 1; the corrected delete clears it and stays consistent |
| AsWritten.DeleteEmptyDirectoryKeepsIt | FileSystem.cpp:326-354 | on the disk holding only that directory, deleting an empty directory as written changes nothing; the corrected delete clears it |
| AsWritten.DeleteNonEmptyDirectoryDiverges | FileSystem.cpp:344-353 | deleting the directory in slot 125 (the last slot with start block 0, where the source looks for children) that holds a file never returns as written; the corrected delete clears both and stays consistent |
| AsWritten.DeleteLowDirectoryKeepsIt | FileSystem.cpp:330-353 | deleting a directory in slot 0 that holds a file changes nothing as written, because the children are looked for under slot 125, which has none |
| AsWritten.CdAsWritten | FileSystem.cpp:416-467 | cd as written never changes the superblock and, for a regular name, lands on some slot whenever it returns a result |
| AsWritten.CdPicksLastZeroStart | FileSystem.cpp:453-458 | entering the only directory, in slot 0, lands on slot 125 as written; the corrected cd lands on slot 0 |
| AsWritten.CdIntoFile | FileSystem.cpp:444-466 | cd as written enters a file; the corrected cd gives DirNotFound |
| AsWritten.MountInstallsInconsistent | FileSystem.cpp:223-230 | a disk with code 3 is installed as written; the corrected mount refuses it with Inconsistent(3) |
| AsWritten.PathKeysEqual | FileSystem.cpp:148-150 | two as-written keys are equal exactly when the parents' names are equal and the entries' own names are equal (for own names without "/"), so entries under different parents with the same name collide |
| AsWritten.PathKeyRejectsConsistentDisk | FileSystem.cpp:138-156 | a disk that passes every rule has two entries with the same as-written key, whatever the root's name reads as |

## Left out

- Disk I/O is not modelled: `fs_read`, `fs_write` and `fs_buff` (FileSystem.cpp:375-411), the block contents, and the file streams of mount and `write_superblock`. Only the superblock is modelled.
- `fs_ls`, `fs_resize` and `fs_defrag` are declared and never defined (FileSystem.cpp:413-415), so there is nothing to model.
- `main` (FileSystem.cpp:486-559), the command parser reading a fixed input file, is not part of this model. Nor are the console messages.
- `check_allocation` (FileSystem.cpp:83-95) fills two sets that nothing reads. `get_parent_node` (FileSystem.cpp:70-72) is inlined as a table lookup.
- Mount reads the records with formatted `>>` extraction (FileSystem.cpp:219-220), which is not a byte decoder. `Operations.Mount` starts from a decoded superblock, and `Codec` gives the byte layout instead.
- The stored `current_directory` map (FileSystem.cpp:15) is not kept. The model derives a directory's entries from the table every time (`Operations.Listing`). The source's map goes stale: mount never rebuilds it; create inserts the new name (FileSystem.cpp:310); delete never erases anything, and its lookup of a missing name inserts a default record (FileSystem.cpp:364); its rebuilds also pick up unused slots whose parent bits are 0.
- Operations.Create: a name that is all white space is not refused, here as in the source. An entry created with an empty name breaks rule 3.
- Preservation.CreatePreservesConsistency: requires a non-empty trimmed name, because of the gap in Create just described.
- Operations.Create: the source only prints its three errors and then goes on to write the record anyway. The model stops at the first error (see Findings).
- Operations.Cd: on duplicate names, which a consistent disk cannot hold, the model picks the lowest slot. The source's map keeps whichever entry it inserted last.
- Operations.Cd: the name is not trimmed, as in the source.
- Operations.Delete: does not prove that the current directory survives. Delete looks a name up only among the current directory's entries, so it clears the current directory only through a parent cycle, which rule 6 does not exclude. For example, take A in slot 0 under B, B in slot 1 under A, and A as the current directory: deleting B clears slot 0 and leaves the current directory at slot 0. The source clears no slot at all on delete (see Findings).
- AsWritten.CreateAsWritten: requires a free slot. With none, the source fills in the name, `used_size`, `start_block` and `dir_parent` of an uninitialised record and writes it over slot 0, which is in use (FileSystem.cpp:245-311). Only the name bytes after the NUL stay uninitialised.
- AsWritten.ScanAsWritten: reads the decoded bitmap, not the source's byte addressing (see the first finding), and stops at block 127. The source also reads a 129th bit, "block 128".
- Allocator.FindContiguousFree: stops at block 127 as well. The source's scan runs to `i <= 128` (FileSystem.cpp:274) and reads a bit for "block 128", which is not on the disk.
- AsWritten.CdAsWritten: an uninitialised index (no slot matches) is modelled as no result, as is a `..` that lands on an invalid slot.
- Loops over `uint8_t` that wrap around (FileSystem.cpp:112) are modelled as ranges that reach past block 127 and count as not marked used. The rule-1 verdict is the same, since every such range contains blocks past 127.
- Checker.CheckAllocation: a range that reaches blocks 128 to 255 without wrapping counts as not marked used there, so rule 1 fails. With its index/16 addressing (the first finding), the source reads real bits of bytes 8 to 15 for those blocks and may accept the range.
- Operations.Remove: `delete_file` (FileSystem.cpp:315) counts `j` in a `uint8_t` up to `start_block + size`. When that sum exceeds 255, `j` wraps and the loop never ends. The model (and `AsWritten.DeleteAsWritten`) frees the range's blocks up to 127 and returns. A consistent disk has no such range, since rule 1 needs every block of it to exist and be marked used.
- Checker.ParentOk: rule 6 (FileSystem.cpp:195-197) reads `sb->inode[127]` for an entry whose parent is the root, past the 126-slot table, and decides on whatever it finds there. The model takes parent 127 as the root directory and always accepts it.
- Operations.Mount: always starts at the root. `fs_mount` (FileSystem.cpp:206-234) never assigns `current_directory_int`, so a second mount keeps the previous disk's slot index as the current directory. `AsWritten.MountAsWritten` keeps it.
- Operations.Create: "." and ".." are not refused as names, as in the source.
- Operations.Create: accepts only names whose trimmed form is at most five bytes, and sizes 0 to 127. The same holds for `AsWritten.CreateAsWritten` and the lemmas about create. The command loop (FileSystem.cpp:503-506) passes any word and any `int`. In the source, a longer name is copied past the five-byte field by `strcpy` (FileSystem.cpp:299). A size of 128 or more is cut to its low seven bits in `used_size` (FileSystem.cpp:300-301), so the record no longer holds the requested size. The model leaves those inputs out rather than modelling the overflow.
- For an entry whose parent is the root (127), rule 2 as written reads the record past the table's end (FileSystem.cpp:149). `AsWritten.PathKeyAsWritten` takes the name found there as a parameter, `rootName`. For an entry whose parent bits are 126, the source reads `inode[126]`, also past the end. The model reads an empty name there (`AsWritten.ParentNameAsWritten`).
- A name field holding five non-NUL bytes has no terminator, and the source reads past it. The model reads it as the five bytes.
- Checker.CheckAllocation: a block that is marked used but belongs to no file is not an error. The rule's own comment (FileSystem.cpp:99-101) asks for one, but the check for it is commented out (FileSystem.cpp:128-133); the model follows the code (`Checker.UncoveredBlockIgnored`).

## Findings

| source | as written | input that shows it | evidently intended | confidence | as-written member | corrected member |
|---|---|---|---|---|---|---|
| FileSystem.cpp:31-45 | byte `index / 16` and mask `1 << index`, truncated to eight bits | blocks 1 and 9 read the same bit; setting block 9 sets nothing | block i in bit i % 8 of byte i / 8 | not executed | FreeBitmap.AsWrittenAddressingLosesBlocks | FreeBitmap.SetBlockUsedBytes |
| FileSystem.cpp:299-311 | create never marks the file's blocks used | create a three-block file on a blank disk: rule 1 fails | the allocated run is marked used | not executed | AsWritten.CreateLeavesRangeFree | Preservation.CreatePreservesConsistency |
| FileSystem.cpp:271-303 | a directory's start block is whatever the size-0 scan left (1 on a blank disk) | create a directory on a blank disk: rule 5 fails | a directory gets start block 0 | not executed | AsWritten.CreateDirectoryStartsAtOne | Operations.Create |
| FileSystem.cpp:258-269 | the "already exists" and "cannot allocate" errors are printed and the record is written anyway | create one directory name twice: rule 2 fails | the operation stops at the error | not executed | AsWritten.CreateDuplicateName | Operations.Create |
| FileSystem.cpp:314-324 | `delete_file` clears a copy of the record, so the slot stays in use | delete a three-block file: its range is free but still owned, so rule 1 fails | the table slot is cleared | not executed | AsWritten.DeleteFileKeepsSlot | Preservation.DeletePreservesConsistency |
| FileSystem.cpp:326-354 | an empty directory is never cleared | delete an empty directory: its slot stays; when the last slot with start block 0 (slot 125 when unused) has no children nothing changes, otherwise the call never returns | the directory's slot is cleared | not executed | AsWritten.DeleteEmptyDirectoryKeepsIt | Operations.Delete |
| FileSystem.cpp:344-353 | the recursion is on the directory itself, not on its children | delete the directory in slot 125 (the last slot with start block 0) that holds a file: the call never returns; a directory in a lower slot that holds a file is left unchanged instead | each child is deleted, then the directory | not executed | AsWritten.DeleteNonEmptyDirectoryDiverges | Operations.Delete |
| FileSystem.cpp:453-458 | cd finds the new directory's slot as the last slot with the same start block | the only directory is in slot 0: every unused slot also has start 0, so cd lands on slot 125 | the slot of the entry named | not executed | AsWritten.CdPicksLastZeroStart | Preservation.CdIntoThenUp |
| FileSystem.cpp:444-466 | cd accepts any entry, files included | cd into a file: the current directory becomes the file's slot | only a directory can be entered | not executed | AsWritten.CdIntoFile | Operations.Cd |
| FileSystem.cpp:148-150 | rule 2 keys on the parent's name, not its slot | directories a and b at the root, a directory a in b, a directory x in each a: consistent, yet reported as code 2 | key on the parent's slot and the name | not executed | AsWritten.PathKeyRejectsConsistentDisk | Checker.CheckNames |
| FileSystem.cpp:223-230 | mount installs the superblock whatever the checker reports | a disk whose slot 0 is in use with an empty name: code 3, installed anyway | an inconsistent disk is refused | not executed | AsWritten.MountInstallsInconsistent | Operations.Mount |

=== FILE: allocator.dfy ===
/** The first-fit allocator of the create operation: a linear scan of the
bitmap from block 1 upward that tracks the current run of free blocks and
stops as soon as the run is as long as the request.
 */
module Allocator {
  import opened Errors
  import opened Layout
  import opened FreeBitmap

  /** `start` begins the lowest run of `size` free blocks at or after
      block `from`. */
  predicate FirstRunFrom(bm: Bitmap, size: nat, from: nat, start: nat)
  {
    from <= start && RunFree(bm, start, size) &&
    forall s :: from <= s < start ==> !RunFree(bm, s, size)
  }

  /** No run of `size` free blocks begins at or after block `from`. */
  ghost predicate NoRunFrom(bm: Bitmap, size: nat, from: nat)
  {
    forall s :: from <= s ==> !RunFree(bm, s, size)
  }

  /** A run that would reach past the last block is never free. */
  lemma RunPastEnd(bm: Bitmap, start: nat, size: nat)
    requires 1 <= size && start + size > BLOCKS
    ensures !RunFree(bm, start, size)
  {
    var b := start + size - 1;
    assert start <= b < start + size && !FreeBlock(bm, b);
  }

  /** The reference first-fit search: tries each start from `from` upward. */
  function FirstFitFrom(bm: Bitmap, size: nat, from: nat): (r: Option<nat>)
    requires 1 <= size
    ensures r.Some? ==> FirstRunFrom(bm, size, from, r.value) && r.value + size <= BLOCKS
    ensures r.None? ==> NoRunFrom(bm, size, from)
    decreases BLOCKS - from
  {
    if from + size > BLOCKS then
      forall s | from <= s
        ensures !RunFree(bm, s, size)
      {
        RunPastEnd(bm, s, size);
      }
      None
    else if RunFree(bm, from, size) then Some(from)
    else FirstFitFrom(bm, size, from + 1)
  }

  /** The first-fit start for `size` blocks, searching from block 1 (block 0
      holds the superblock). */
  function FirstFit(bm: Bitmap, size: nat): (r: Option<nat>)
    requires 1 <= size
    ensures r.Some? ==> 1 <= r.value && r.value + size <= BLOCKS && RunFree(bm, r.value, size)
    ensures r.Some? ==> forall s :: 1 <= s < r.value ==> !RunFree(bm, s, size)
    ensures r.None? ==> forall s :: 1 <= s ==> !RunFree(bm, s, size)
  {
    FirstFitFrom(bm, size, 1)
  }

  /** The search as the create operation runs it: one pass over blocks
      1..127 with a run counter and the run's first block (-1 for none). */
  method FindContiguousFree(bm: Bitmap, size: nat) returns (r: Option<nat>)
    requires 1 <= size
    ensures r == FirstFit(bm, size)
  {
    var run: nat := 0;
    var start: int := -1;
    var i := 1;
    while i < BLOCKS
      invariant 1 <= i <= BLOCKS
      invariant run < size && run < i
      invariant run == 0 ==> start == -1
      invariant run > 0 ==> start == i - run
      invariant RunFree(bm, i - run, run)
      invariant i - run == 1 || bm[i - run - 1]
      invariant forall s :: 1 <= s && s + size <= i ==> !RunFree(bm, s, size)
    {
      if !bm[i] {
        run := run + 1;
        if start == -1 {
          start := i;
        }
      } else {
        run := 0;
        start := -1;
      }
      if run == size {
        r := Some(start);
        assert FirstRunFrom(bm, size, 1, start);
        return;
      }
      if i + 1 > size {
        assert !RunFree(bm, i + 1 - size, size) by {
          if bm[i] {
            assert !FreeBlock(bm, i);
          } else if i + 1 - run > 1 {
            assert !FreeBlock(bm, i - run);
          }
        }
      }
      i := i + 1;
    }
    forall s | 1 <= s
      ensures !RunFree(bm, s, size)
    {
      if s + size > BLOCKS {
        RunPastEnd(bm, s, size);
      }
    }
    return None;
  }
}

=== FILE: bitmap.dfy ===
/** The free bitmap: one bit per block, 0 = free, 1 = in use.

The operations work on the decoded form (`Layout.Bitmap`, a sequence of 128
booleans). The 16-byte form stored in the superblock puts block `i` in bit
`i % 8` of byte `i / 8`; `Unpack` and `Pack` translate between the two, and
the byte-level setters are proved to act on exactly one decoded block.
 */
module FreeBitmap {
  import opened Bytes
  import opened Layout

  // ---------------------------------------------------------------------
  // Decoded bitmap

  /** Whether block `b` is marked in use. A block past the end of the disk is
      never marked in use. */
  predicate MarkedUsed(bm: seq<bool>, b: nat)
  {
    b < |bm| && bm[b]
  }

  /** Marks one block used or free; a block past the end is ignored. */
  function SetBlock(bm: Bitmap, b: nat, used: bool): (r: Bitmap)
    ensures MarkedUsed(r, b) == (used && b < BLOCKS)
    ensures forall c :: 0 <= c < BLOCKS && c != b ==> r[c] == bm[c]
  {
    if b < BLOCKS then bm[b := used] else bm
  }

  /** Marks every block of `[start, end)` used or free, one block at a time
      from `start` upward, as the source's loops over a file's range do. */
  function MarkRange(bm: Bitmap, start: nat, end: nat, used: bool): (r: Bitmap)
    ensures forall c :: 0 <= c < BLOCKS ==>
      r[c] == (if start <= c < end then used else bm[c])
    decreases end - start
  {
    if end <= start then bm
    else MarkRange(SetBlock(bm, start, used), start + 1, end, used)
  }

  /** Block `b` exists and is marked free. */
  predicate FreeBlock(bm: seq<bool>, b: nat)
  {
    b < |bm| && !bm[b]
  }

  /** True when every block of `[start, start + n)` exists and is free. */
  predicate RunFree(bm: seq<bool>, start: nat, n: nat)
  {
    forall b :: start <= b < start + n ==> FreeBlock(bm, b)
  }

  // ---------------------------------------------------------------------
  // The 16-byte stored form

  const BITMAP_BYTES: nat := 16

  /** `block_marked_free` on the stored bytes: bit `i % 8` of byte `i / 8`. */
  predicate ByteMarkedFree(bytes: seq<Byte>, i: nat)
    requires |bytes| == BITMAP_BYTES && i < BLOCKS
  {
    !Bit(bytes[i / 8], i % 8)
  }

  /** The decoded bitmap the stored bytes hold. */
  function Unpack(bytes: seq<Byte>): (bm: Bitmap)
    requires |bytes| == BITMAP_BYTES
  {
    seq(BLOCKS, i requires 0 <= i < BLOCKS => !ByteMarkedFree(bytes, i))
  }

  /** The stored bytes of a decoded bitmap: byte `k` holds blocks
      `8 * k .. 8 * k + 7`, block `8 * k + j` in bit `j`. */
  function Pack(bm: Bitmap): (bytes: seq<Byte>)
    ensures |bytes| == BITMAP_BYTES
  {
    seq(BITMAP_BYTES, k requires 0 <= k < BITMAP_BYTES => FromBits(bm[8 * k .. 8 * k + 8]))
  }

  /** Block `8 * k + j` sits in bit `j` of byte `k`. */
  lemma BlockAddress(k: nat, j: nat)
    requires j < 8
    ensures (8 * k + j) / 8 == k && (8 * k + j) % 8 == j
  {
  }

  /** Block `i = 8 * k + j` reads bit `j` of byte `k`. */
  lemma UnpackAt(bytes: seq<Byte>, i: nat, k: nat, j: nat)
    requires |bytes| == BITMAP_BYTES && k < BITMAP_BYTES && j < 8 && i == 8 * k + j
    ensures Unpack(bytes)[i] == Bits(bytes[k])[j]
  {
    BlockAddress(k, j);
  }

  lemma UnpackPackAt(bm: Bitmap, i: nat)
    requires i < BLOCKS
    ensures Unpack(Pack(bm))[i] == bm[i]
  {
    Split(i);
    var k, j := i / 8, i % 8;
    UnpackAt(Pack(bm), i, k, j);
    assert bm[8 * k .. 8 * k + 8][j] == bm[i];
  }

  /** Decoding the stored form of a bitmap gives the bitmap back. */
  lemma UnpackPack(bm: Bitmap)
    ensures Unpack(Pack(bm)) == bm
  {
    forall i | 0 <= i < BLOCKS
      ensures Unpack(Pack(bm))[i] == bm[i]
    {
      UnpackPackAt(bm, i);
    }
  }

  lemma PackUnpackAt(bytes: seq<Byte>, k: nat)
    requires |bytes| == BITMAP_BYTES && k < BITMAP_BYTES
    ensures Pack(Unpack(bytes))[k] == bytes[k]
  {
    var slice := Unpack(bytes)[8 * k .. 8 * k + 8];
    forall j | 0 <= j < 8
      ensures slice[j] == Bits(bytes[k])[j]
    {
      UnpackAt(bytes, 8 * k + j, k, j);
    }
    assert slice == Bits(bytes[k]);
    FromBitsOfBits(bytes[k]);
  }

  /** Storing a decoded bitmap gives the stored bytes back. */
  lemma PackUnpack(bytes: seq<Byte>)
    requires |bytes| == BITMAP_BYTES
    ensures Pack(Unpack(bytes)) == bytes
  {
    forall k | 0 <= k < BITMAP_BYTES
      ensures Pack(Unpack(bytes))[k] == bytes[k]
    {
      PackUnpackAt(bytes, k);
    }
  }

  /** Replacing byte `k` changes only the blocks of that byte. */
  lemma UpdateAt(bytes: seq<Byte>, k: nat, y: Byte, i: nat, k2: nat, b2: nat)
    requires |bytes| == BITMAP_BYTES && k < BITMAP_BYTES && k2 < BITMAP_BYTES && b2 < 8
    requires i == 8 * k2 + b2
    ensures Unpack(bytes[k := y])[i] == if k2 == k then Bits(y)[b2] else Unpack(bytes)[i]
  {
    UnpackAt(bytes[k := y], i, k2, b2);
    UnpackAt(bytes, i, k2, b2);
  }

  /** `set_block_used` on the stored bytes, with byte `i / 8`. */
  function SetBlockUsedBytes(bytes: seq<Byte>, i: nat): (r: seq<Byte>)
    requires |bytes| == BITMAP_BYTES && i < BLOCKS
    ensures |r| == BITMAP_BYTES
    ensures Unpack(r) == Unpack(bytes)[i := true]
  {
    var r := bytes[i / 8 := SetBit(bytes[i / 8], i % 8)];
    forall j | 0 <= j < BLOCKS
      ensures Unpack(r)[j] == Unpack(bytes)[i := true][j]
    {
      SetUsedAt(bytes, i, j);
    }
    r
  }

  lemma SetUsedAt(bytes: seq<Byte>, i: nat, j: nat)
    requires |bytes| == BITMAP_BYTES && i < BLOCKS && j < BLOCKS
    ensures Unpack(bytes[i / 8 := SetBit(bytes[i / 8], i % 8)])[j] == (j == i || Unpack(bytes)[j])
  {
    Split(i);
    Split(j);
    SameByteAndBit(i, j);
    UpdateAt(bytes, i / 8, SetBit(bytes[i / 8], i % 8), j, j / 8, j % 8);
    UnpackAt(bytes, j, j / 8, j % 8);
  }

  /** `set_block_free` on the stored bytes, with byte `i / 8`. */
  function SetBlockFreeBytes(bytes: seq<Byte>, i: nat): (r: seq<Byte>)
    requires |bytes| == BITMAP_BYTES && i < BLOCKS
    ensures |r| == BITMAP_BYTES
    ensures Unpack(r) == Unpack(bytes)[i := false]
  {
    var r := bytes[i / 8 := ClearBit(bytes[i / 8], i % 8)];
    forall j | 0 <= j < BLOCKS
      ensures Unpack(r)[j] == Unpack(bytes)[i := false][j]
    {
      SetFreeAt(bytes, i, j);
    }
    r
  }

  lemma SetFreeAt(bytes: seq<Byte>, i: nat, j: nat)
    requires |bytes| == BITMAP_BYTES && i < BLOCKS && j < BLOCKS
    ensures Unpack(bytes[i / 8 := ClearBit(bytes[i / 8], i % 8)])[j] == (j != i && Unpack(bytes)[j])
  {
    Split(i);
    Split(j);
    SameByteAndBit(i, j);
    UpdateAt(bytes, i / 8, ClearBit(bytes[i / 8], i % 8), j, j / 8, j % 8);
    UnpackAt(bytes, j, j / 8, j % 8);
  }

  /** Block `i` is bit `i % 8` of byte `i / 8`. */
  lemma Split(i: nat)
    requires i < BLOCKS
    ensures i / 8 < BITMAP_BYTES && i % 8 < 8 && i == 8 * (i / 8) + i % 8
  {
  }

  lemma SameByteAndBit(i: nat, j: nat)
    ensures i == j <==> i / 8 == j / 8 && i % 8 == j % 8
  {
  }

  // ---------------------------------------------------------------------
  // The addressing the source uses

  /** `block_marked_free` as written: byte `index / 16`, bit `index % 8`. */
  predicate BlockMarkedFreeAsWritten(bytes: seq<Byte>, i: nat)
    requires |bytes| == BITMAP_BYTES && i < 256
  {
    !Bit(bytes[i / 16], i % 8)
  }

  /** `set_block_used` as written: byte `index / 16`, mask `1 << index`
      truncated to eight bits, which is zero from index 8 on. Indices from 32
      on make the C shift undefined and are not modelled. */
  function SetBlockUsedAsWritten(bytes: seq<Byte>, i: nat): (r: seq<Byte>)
    requires |bytes| == BITMAP_BYTES && i < 32
    ensures |r| == BITMAP_BYTES
  {
    var byte := bytes[i / 16];
    bytes[i / 16 := if i < 8 then SetBit(byte, i) else byte]
  }

  /** Counterexample for the as-written addressing: blocks 1 and 9 read the
      same bit, and marking block 9 used leaves it reading free. */
  lemma AsWrittenAddressingLosesBlocks(bytes: seq<Byte>)
    requires |bytes| == BITMAP_BYTES
    ensures BlockMarkedFreeAsWritten(bytes, 1) == BlockMarkedFreeAsWritten(bytes, 9)
    ensures var zero := seq(BITMAP_BYTES, _ => 0);
            BlockMarkedFreeAsWritten(SetBlockUsedAsWritten(zero, 9), 9)
  {
    assert 1 / 16 == 9 / 16 == 0 && 1 % 8 == 9 % 8 == 1;
    var zero: seq<Byte> := seq(BITMAP_BYTES, _ => 0);
    assert SetBlockUsedAsWritten(zero, 9) == zero;
    assert Bits(zero[0]) == Digits(0, 8);
    ZeroHasNoBits(8);
  }

  lemma {:induction false} ZeroHasNoBits(n: nat)
    ensures forall j :: 0 <= j < n ==> !Digits(0, n)[j]
  {
    if n > 0 {
      ZeroHasNoBits(n - 1);
      assert Digits(0, n) == [false] + Digits(0, n - 1);
    }
  }
}

=== FILE: bytes.dfy ===
/** Unsigned bytes and their bits.

A byte is held as its value, 0 to 255. Bit `j` of a byte is its `j`-th binary
digit, so the source's `x & (1 << j)` test, `x | (1 << k)` and
`x & ~(1 << k)` become reading, setting and clearing one digit.
 */
module Bytes {

  /** The value of an unsigned byte. */
  type Byte = x: int | 0 <= x < 256

  function Pow2(n: nat): (p: nat)
    ensures p >= 1
  {
    if n == 0 then 1 else 2 * Pow2(n - 1)
  }

  /** The number whose binary digits, lowest first, are `bits`. */
  function Value(bits: seq<bool>): (x: nat)
    ensures x < Pow2(|bits|)
  {
    if bits == [] then 0 else (if bits[0] then 1 else 0) + 2 * Value(bits[1..])
  }

  /** The lowest `n` binary digits of `x`, lowest first. */
  function Digits(x: nat, n: nat): (bits: seq<bool>)
    ensures |bits| == n
  {
    if n == 0 then [] else [x % 2 == 1] + Digits(x / 2, n - 1)
  }

  lemma {:induction false} ValueOfDigits(x: nat, n: nat)
    requires x < Pow2(n)
    ensures Value(Digits(x, n)) == x
  {
    if n > 0 {
      ValueOfDigits(x / 2, n - 1);
      assert Digits(x, n)[1..] == Digits(x / 2, n - 1);
    }
  }

  lemma {:induction false} DigitsOfValue(bits: seq<bool>)
    ensures Digits(Value(bits), |bits|) == bits
  {
    if bits != [] {
      DigitsOfValue(bits[1..]);
      var v := Value(bits);
      assert v / 2 == Value(bits[1..]);
      assert (v % 2 == 1) == bits[0];
    }
  }

  /** The highest digit weighs `Pow2(n - 1)`. */
  lemma {:induction false} ValueOfTop(bits: seq<bool>)
    requires |bits| > 0
    ensures Value(bits) == Value(bits[..|bits| - 1]) + (if bits[|bits| - 1] then Pow2(|bits| - 1) else 0)
  {
    if |bits| > 1 {
      ValueOfTop(bits[1..]);
      assert bits[1..][..|bits| - 2] == bits[..|bits| - 1][1..];
    }
  }

  /** The eight bits of a byte, lowest first. */
  function Bits(x: Byte): (bits: seq<bool>)
    ensures |bits| == 8
  {
    Digits(x, 8)
  }

  /** The byte whose bits, lowest first, are `bits`. */
  function FromBits(bits: seq<bool>): (x: Byte)
    requires |bits| == 8
    ensures Bits(x) == bits
  {
    DigitsOfValue(bits);
    Value(bits)
  }

  lemma FromBitsOfBits(x: Byte)
    ensures FromBits(Bits(x)) == x
  {
    ValueOfDigits(x, 8);
  }

  /** `x & (1 << j) != 0`. */
  predicate Bit(x: Byte, j: nat)
    requires j < 8
  {
    Bits(x)[j]
  }

  /** `x | (1 << k)`: bit `k` set, every other bit as in `x`. */
  function SetBit(x: Byte, k: nat): (y: Byte)
    requires k < 8
    ensures Bits(y) == Bits(x)[k := true]
  {
    FromBits(Bits(x)[k := true])
  }

  /** `x & ~(1 << k)`: bit `k` cleared, every other bit as in `x`. */
  function ClearBit(x: Byte, k: nat): (y: Byte)
    requires k < 8
    ensures Bits(y) == Bits(x)[k := false]
  {
    FromBits(Bits(x)[k := false])
  }

  /** Bit 7 is the `0x80` flag: set exactly from 128 up; the other seven
      bits, `x & 0x7f`, are worth `x % 128`. */
  lemma TopBit(x: Byte)
    ensures Bit(x, 7) == (x >= 128)
    ensures Value(Bits(x)[..7]) == x % 128
  {
    var b := Bits(x);
    ValueOfDigits(x, 8);
    ValueOfTop(b);
    var low := Value(b[..7]);
    assert Pow2(7) == 128;
    assert low < 128;
    if b[7] {
      assert x == low + 128;
    } else {
      assert x == low;
    }
  }
}

=== FILE: checker.dfy ===
/** The consistency checker: six structural rules over a superblock snapshot,
checked in a fixed order; the result is the number of the first rule that
fails, or 0 when all hold.

The rules are stated declaratively (`Holds`), `FirstFailing` is the code they
define, and `ConsistencyCheck` computes it with the source's slot-by-slot
scans, including the set of blocks already claimed and the set of names
already seen.
 */
module Checker {
  import opened Bytes
  import opened Layout
  import opened FreeBitmap

  // ---------------------------------------------------------------------
  // Rule 1: allocation

  /** Every block of every in-use range among the first `n` slots is marked
      used. */
  predicate RangesMarkedUsed(sb: Superblock, n: nat)
    requires n <= SLOTS
  {
    forall i, b :: 0 <= i < n && 0 <= b < RANGE_LIMIT && Covers(sb.inodes[i], b) ==>
      MarkedUsed(sb.bitmap, b)
  }

  /** No block lies in the ranges of two in-use entries among the first `n`
      slots. */
  predicate RangesDisjoint(t: Table, n: nat)
    requires n <= SLOTS
  {
    forall i, k, b :: 0 <= i < k < n && 0 <= b < RANGE_LIMIT && Covers(t[i], b) ==>
      !Covers(t[k], b)
  }

  /** Block `b` is marked used and lies in no in-use range among the first
      `n` slots. */
  predicate UsedAndUnclaimed(sb: Superblock, n: nat, b: nat)
    requires n <= SLOTS
  {
    MarkedUsed(sb.bitmap, b) && forall k :: 0 <= k < n ==> !Covers(sb.inodes[k], b)
  }

  predicate AllocationUpTo(sb: Superblock, n: nat)
    requires n <= SLOTS
  {
    RangesMarkedUsed(sb, n) && RangesDisjoint(sb.inodes, n)
  }

  // ---------------------------------------------------------------------
  // Rule 2: names

  /** What makes an entry's name unique: its parent index and its name. */
  function Key(n: Inode): (nat, seq<Byte>)
  {
    (ParentIndex(n), NameOf(n))
  }

  predicate NamesUniqueUpTo(t: Table, n: nat)
    requires n <= SLOTS
  {
    forall i, k :: 0 <= i < k < n && InUse(t[i]) && InUse(t[k]) ==> Key(t[i]) != Key(t[k])
  }

  // ---------------------------------------------------------------------
  // Rules 3 to 6: one slot at a time

  /** Rule 3: an unused slot passes the emptiness test; an in-use slot has a
      non-empty name. */
  predicate ZeroOrNamed(n: Inode)
  {
    if InUse(n) then n.name[0] != 0 else AllBytesZero(n)
  }

  /** Rule 4: an in-use file starts inside blocks 1..127. */
  predicate FileStartOk(n: Inode)
  {
    InUse(n) && !IsDirectory(n) ==> 1 <= Start(n) <= 127
  }

  /** Rule 5: an in-use directory has size 0 and start block 0. */
  predicate DirectoryShapeOk(n: Inode)
  {
    InUse(n) && IsDirectory(n) ==> Size(n) == 0 && Start(n) == 0
  }

  /** Rule 6: an in-use entry's parent is the root or an in-use directory
      slot, and never the invalid index. */
  predicate ParentOk(t: Table, n: Inode)
  {
    InUse(n) ==>
      ParentIndex(n) != INVALID_PARENT &&
      (ParentIndex(n) == ROOT_PARENT ||
       (InUse(t[ParentIndex(n)]) && IsDirectory(t[ParentIndex(n)])))
  }

  /** The per-slot rules 3 to 6. */
  predicate SlotRule(t: Table, k: nat, n: Inode)
  {
    match k
    case 3 => ZeroOrNamed(n)
    case 4 => FileStartOk(n)
    case 5 => DirectoryShapeOk(n)
    case 6 => ParentOk(t, n)
    case _ => true
  }

  /** Rule `k` of the checker holds of the snapshot. */
  predicate Holds(sb: Superblock, k: nat)
  {
    match k
    case 1 => AllocationUpTo(sb, SLOTS)
    case 2 => NamesUniqueUpTo(sb.inodes, SLOTS)
    case _ => forall i :: 0 <= i < SLOTS ==> SlotRule(sb.inodes, k, sb.inodes[i])
  }

  /** All six rules hold. */
  predicate Consistent(sb: Superblock)
  {
    Holds(sb, 1) && Holds(sb, 2) && Holds(sb, 3) && Holds(sb, 4) && Holds(sb, 5) && Holds(sb, 6)
  }

  /** The code the checker reports: the number of the first rule that fails,
      or 0. */
  function FirstFailing(sb: Superblock): (code: nat)
    ensures code <= 6
    ensures code == 0 <==> forall k :: 1 <= k <= 6 ==> Holds(sb, k)
    ensures code != 0 ==> !Holds(sb, code) && forall k :: 1 <= k < code ==> Holds(sb, k)
  {
    if !Holds(sb, 1) then 1
    else if !Holds(sb, 2) then 2
    else if !Holds(sb, 3) then 3
    else if !Holds(sb, 4) then 4
    else if !Holds(sb, 5) then 5
    else if !Holds(sb, 6) then 6
    else 0
  }

  lemma ConsistentIsZero(sb: Superblock)
    ensures Consistent(sb) <==> FirstFailing(sb) == 0
  {
  }

  // ---------------------------------------------------------------------
  // The checker as the source computes it

  /** `consistency_check`: the six scans of the table in rule order,
      returning at the first violation. */
  method ConsistencyCheck(sb: Superblock) returns (code: nat)
    ensures code == FirstFailing(sb)
  {
    var ok := CheckAllocation(sb);
    if !ok {
      return 1;
    }
    ok := CheckNames(sb);
    if !ok {
      return 2;
    }
    for k := 3 to 7
      invariant forall r :: 1 <= r < k ==> Holds(sb, r)
    {
      ok := CheckSlots(sb, k);
      if !ok {
        return k;
      }
    }
    return 0;
  }

  /** The first scan: walks every in-use range block by block, failing on a
      block marked free or one an earlier range already claimed. */
  method CheckAllocation(sb: Superblock) returns (ok: bool)
    ensures ok == Holds(sb, 1)
  {
    var t, bm := sb.inodes, sb.bitmap;
    var claimed: set<nat> := {};
    for i := 0 to SLOTS
      invariant AllocationUpTo(sb, i)
      invariant forall k, b :: 0 <= k < i && Covers(t[k], b) ==> b in claimed
      invariant forall b :: b in claimed ==> exists k :: 0 <= k < i && Covers(t[k], b)
    {
      var node := t[i];
      if InUse(node) {
        var j := Start(node);
        while j < Start(node) + Size(node)
          invariant Start(node) <= j <= Start(node) + Size(node)
          invariant forall k, b :: 0 <= k < i && Covers(t[k], b) ==> b in claimed
          invariant forall b :: Start(node) <= b < j ==> b in claimed
          invariant forall b :: b in claimed ==>
                      (exists k :: 0 <= k < i && Covers(t[k], b)) || Start(node) <= b < j
          invariant forall b :: Start(node) <= b < j ==> UsedAndUnclaimed(sb, i, b)
        {
          assert Covers(t[i], j);
          if !MarkedUsed(bm, j) {
            assert !RangesMarkedUsed(sb, SLOTS);
            return false;
          }
          if j in claimed {
            var k :| 0 <= k < i && Covers(t[k], j);
            assert !RangesDisjoint(t, SLOTS);
            return false;
          }
          assert UsedAndUnclaimed(sb, i, j);
          claimed := claimed + {j};
          j := j + 1;
        }
        forall b | Covers(t[i], b)
          ensures MarkedUsed(bm, b)
        {
          assert UsedAndUnclaimed(sb, i, b);
        }
        forall k, b | 0 <= k < i && Covers(t[i], b)
          ensures !Covers(t[k], b)
        {
          assert UsedAndUnclaimed(sb, i, b);
        }
      }
    }
    return true;
  }

  /** The second scan: remembers every (parent, name) pair seen so far and
      fails on the first repeat. */
  method CheckNames(sb: Superblock) returns (ok: bool)
    ensures ok == Holds(sb, 2)
  {
    var t := sb.inodes;
    var seen: set<(nat, seq<Byte>)> := {};
    for i := 0 to SLOTS
      invariant NamesUniqueUpTo(t, i)
      invariant forall k :: 0 <= k < i && InUse(t[k]) ==> Key(t[k]) in seen
      invariant forall key :: key in seen ==> exists k :: 0 <= k < i && InUse(t[k]) && Key(t[k]) == key
    {
      if InUse(t[i]) {
        var key := Key(t[i]);
        if key in seen {
          var k :| 0 <= k < i && InUse(t[k]) && Key(t[k]) == key;
          assert !NamesUniqueUpTo(t, SLOTS);
          return false;
        }
        seen := seen + {key};
      }
    }
    return true;
  }

  /** Scans three to six: one property per slot, failing on the first slot
      that breaks it. */
  method CheckSlots(sb: Superblock, k: nat) returns (ok: bool)
    requires 3 <= k <= 6
    ensures ok == Holds(sb, k)
  {
    for i := 0 to SLOTS
      invariant forall j :: 0 <= j < i ==> SlotRule(sb.inodes, k, sb.inodes[j])
    {
      if !SlotRule(sb.inodes, k, sb.inodes[i]) {
        return false;
      }
    }
    return true;
  }

  // ---------------------------------------------------------------------
  // Properties of the checker

  /** A block marked used that no in-use range covers is not an error: the
      checker's code does not depend on how such a block is marked. */
  lemma UncoveredBlockIgnored(sb: Superblock, b: nat, used: bool)
    requires b < BLOCKS
    requires forall i :: 0 <= i < SLOTS ==> !Covers(sb.inodes[i], b)
    ensures FirstFailing(Superblock(sb.bitmap[b := used], sb.inodes)) == FirstFailing(sb)
  {
    var sb' := Superblock(sb.bitmap[b := used], sb.inodes);
    forall i, c | 0 <= i < SLOTS && Covers(sb.inodes[i], c)
      ensures MarkedUsed(sb'.bitmap, c) == MarkedUsed(sb.bitmap, c)
    {
      assert c != b;
    }
    assert Holds(sb', 1) == Holds(sb, 1);
  }
}

=== FILE: codec.dfy ===
/** The stored form of the superblock: the 16 bitmap bytes, then the 126
eight-byte inode records in slot order, 1024 bytes in all, which is exactly
one block.

Each record is stored field by field: the five name bytes, `used_size`,
`start_block`, `dir_parent`.
 */
module Codec {
  import opened Bytes
  import opened Errors
  import opened Layout
  import opened FreeBitmap

  const INODE_BYTES: nat := 8
  const HEADER_BYTES: nat := 1024

  // ---------------------------------------------------------------------
  // One record

  function EncodeInode(n: Inode): (r: seq<Byte>)
    ensures |r| == INODE_BYTES
    ensures r[..NAME_LEN] == n.name
    ensures r[5] == n.usedSize && r[6] == n.startBlock && r[7] == n.dirParent
  {
    n.name + [n.usedSize, n.startBlock, n.dirParent]
  }

  function DecodeInode(bytes: seq<Byte>): (n: Inode)
    requires |bytes| == INODE_BYTES
    ensures n.name == bytes[..NAME_LEN]
    ensures n.usedSize == bytes[5] && n.startBlock == bytes[6] && n.dirParent == bytes[7]
  {
    Inode(bytes[..NAME_LEN], bytes[5], bytes[6], bytes[7])
  }

  lemma DecodeEncodeInode(n: Inode)
    ensures DecodeInode(EncodeInode(n)) == n
  {
  }

  lemma EncodeDecodeInode(bytes: seq<Byte>)
    requires |bytes| == INODE_BYTES
    ensures EncodeInode(DecodeInode(bytes)) == bytes
  {
    assert bytes == bytes[..NAME_LEN] + [bytes[5], bytes[6], bytes[7]];
  }

  // ---------------------------------------------------------------------
  // The table

  /** The records one after another; record `i` fills bytes `8 * i` to
      `8 * i + 7`. */
  function EncodeTable(t: seq<Inode>): (r: seq<Byte>)
    ensures |r| == INODE_BYTES * |t|
    ensures forall i :: 0 <= i < |t| ==>
              r[INODE_BYTES * i .. INODE_BYTES * i + INODE_BYTES] == EncodeInode(t[i])
  {
    if t == [] then []
    else
      var rest := EncodeTable(t[1..]);
      var r := EncodeInode(t[0]) + rest;
      forall i | 1 <= i < |t|
        ensures r[INODE_BYTES * i .. INODE_BYTES * i + INODE_BYTES] == EncodeInode(t[i])
      {
        assert r[INODE_BYTES * i .. INODE_BYTES * i + INODE_BYTES]
            == rest[INODE_BYTES * (i - 1) .. INODE_BYTES * (i - 1) + INODE_BYTES];
      }
      r
  }

  /** Cuts the bytes into eight-byte records. */
  function DecodeTable(bytes: seq<Byte>): (t: seq<Inode>)
    requires |bytes| % INODE_BYTES == 0
    ensures |t| == |bytes| / INODE_BYTES
    ensures forall i :: 0 <= i < |t| ==>
              t[i] == DecodeInode(bytes[INODE_BYTES * i .. INODE_BYTES * i + INODE_BYTES])
    decreases |bytes|
  {
    if bytes == [] then []
    else
      var rest := bytes[INODE_BYTES..];
      var t := [DecodeInode(bytes[..INODE_BYTES])] + DecodeTable(rest);
      forall i | 1 <= i < |t|
        ensures t[i] == DecodeInode(bytes[INODE_BYTES * i .. INODE_BYTES * i + INODE_BYTES])
      {
        assert bytes[INODE_BYTES * i .. INODE_BYTES * i + INODE_BYTES]
            == rest[INODE_BYTES * (i - 1) .. INODE_BYTES * (i - 1) + INODE_BYTES];
      }
      t
  }

  lemma DecodeEncodeTable(t: seq<Inode>)
    ensures DecodeTable(EncodeTable(t)) == t
  {
    var d := DecodeTable(EncodeTable(t));
    forall i | 0 <= i < |t|
      ensures d[i] == t[i]
    {
      DecodeEncodeInode(t[i]);
    }
  }

  lemma {:induction false} EncodeDecodeTable(bytes: seq<Byte>)
    requires |bytes| % INODE_BYTES == 0
    ensures EncodeTable(DecodeTable(bytes)) == bytes
    decreases |bytes|
  {
    if bytes != [] {
      var t := DecodeTable(bytes);
      var rest := bytes[INODE_BYTES..];
      assert t[1..] == DecodeTable(rest);
      EncodeDecodeTable(rest);
      EncodeDecodeInode(bytes[..INODE_BYTES]);
      assert bytes == bytes[..INODE_BYTES] + rest;
    }
  }

  // ---------------------------------------------------------------------
  // The whole header

  /** The block `write_superblock` stores: the packed bitmap, then the
      table. */
  function EncodeHeader(sb: Superblock): (r: seq<Byte>)
    ensures |r| == HEADER_BYTES
    ensures Unpack(r[..BITMAP_BYTES]) == sb.bitmap
    ensures forall i :: 0 <= i < SLOTS ==>
              DecodeInode(r[BITMAP_BYTES + INODE_BYTES * i .. BITMAP_BYTES + INODE_BYTES * i + INODE_BYTES])
                == sb.inodes[i]
  {
    var bm := Pack(sb.bitmap);
    var tb := EncodeTable(sb.inodes);
    var r := bm + tb;
    assert r[..BITMAP_BYTES] == bm;
    UnpackPack(sb.bitmap);
    forall i | 0 <= i < SLOTS
      ensures DecodeInode(r[BITMAP_BYTES + INODE_BYTES * i .. BITMAP_BYTES + INODE_BYTES * i + INODE_BYTES])
                == sb.inodes[i]
    {
      assert r[BITMAP_BYTES + INODE_BYTES * i .. BITMAP_BYTES + INODE_BYTES * i + INODE_BYTES]
          == tb[INODE_BYTES * i .. INODE_BYTES * i + INODE_BYTES];
      DecodeEncodeInode(sb.inodes[i]);
    }
    r
  }

  /** Reads a header back; anything but 1024 bytes is refused. */
  function DecodeHeader(bytes: seq<Byte>): (r: Option<Superblock>)
    ensures r.Some? <==> |bytes| == HEADER_BYTES
    ensures r.Some? ==> Pack(r.value.bitmap) == bytes[..BITMAP_BYTES]
  {
    if |bytes| != HEADER_BYTES then None
    else
      PackUnpack(bytes[..BITMAP_BYTES]);
      Some(Superblock(Unpack(bytes[..BITMAP_BYTES]), DecodeTable(bytes[BITMAP_BYTES..])))
  }

  /** Reading back what was written gives the superblock back. */
  lemma DecodeEncodeHeader(sb: Superblock)
    ensures DecodeHeader(EncodeHeader(sb)) == Some(sb)
  {
    var r := EncodeHeader(sb);
    var d := DecodeHeader(r).value;
    assert r[BITMAP_BYTES..] == EncodeTable(sb.inodes);
    DecodeEncodeTable(sb.inodes);
  }

  /** Every 1024-byte block is the stored form of the superblock it reads
      as. */
  lemma EncodeDecodeHeader(bytes: seq<Byte>)
    requires |bytes| == HEADER_BYTES
    ensures EncodeHeader(DecodeHeader(bytes).value) == bytes
  {
    var sb := DecodeHeader(bytes).value;
    PackUnpack(bytes[..BITMAP_BYTES]);
    EncodeDecodeTable(bytes[BITMAP_BYTES..]);
    assert bytes == bytes[..BITMAP_BYTES] + bytes[BITMAP_BYTES..];
  }
}

=== FILE: errors.dfy ===
/** Failure-carrying results for the file-system operations.

The source reports every failure on standard error and carries on; the model
returns the failure instead, so that each operation's error path is a value
the caller can inspect.
 */
module Errors {

  datatype Option<+T> = None | Some(value: T)

  /** The error kinds an operation of the file-system core can report. */
  datatype Error =
    | SuperblockFull        // no unused inode slot is left
    | NameExists            // the current directory already holds the name
    | NoSpace               // no contiguous run of free blocks is long enough
    | FileNotFound          // the current directory holds no such name
    | DirNotFound           // the current directory holds no such directory
    | Inconsistent(code: nat)  // the consistency checker rejected an image

  datatype Result<+T> = Ok(value: T) | Err(error: Error)
}

=== FILE: findings.dfy ===
/** The operations as the source writes them, where they differ from the
model, with a concrete disk for each difference that shows the effect.

Each as-written member is paired with its corrected counterpart in
`Operations`; the counterexample lemmas state both outcomes side by side.
 */
module AsWritten {
  import opened Bytes
  import opened Errors
  import opened Layout
  import opened FreeBitmap
  import opened Whitespace
  import opened Checker
  import opened Operations
  import opened Preservation

  // ---------------------------------------------------------------------
  // Create

  /** The scan of `fs_create` as written, from block `i` with `run` free
      blocks counted so far, the first of them `start` (-1 for none). It
      stops when the count equals `size`, so for size 0 it stops only right
      after a used block, with start -1. */
  function ScanAsWritten(bm: Bitmap, size: nat, i: nat, run: nat, start: int): (r: int)
    requires 1 <= i && -1 <= start < BLOCKS
    ensures -1 <= r < BLOCKS
    decreases BLOCKS - i
  {
    if i >= BLOCKS then start
    else if bm[i] then
      if size == 0 then -1 else ScanAsWritten(bm, size, i + 1, 0, -1)
    else if run + 1 == size then (if start == -1 then i else start)
    else ScanAsWritten(bm, size, i + 1, run + 1, if start == -1 then i else start)
  }

  /** `(uint8_t) start`: -1 becomes 255. */
  function StartByteAsWritten(start: int): Byte
    requires -1 <= start < BLOCKS
  {
    if start == -1 then 255 else start
  }

  /** `fs_create` as written, on a disk with a free slot (with none, it fills
      in the fields of an uninitialised record and writes it over slot 0,
      which is in use; that case is not modelled). It checks
      no name, marks no block and gives a directory whatever start the scan
      left. */
  function CreateAsWritten(fs: FileSystem, name: seq<Byte>, size: nat): (r: FileSystem)
    requires CwdOk(fs) && IsCString(name) && |Trim(name)| <= NAME_LEN && size < 128
    requires exists i :: 0 <= i < SLOTS && !InUse(fs.sb.inodes[i])
    ensures r.sb.bitmap == fs.sb.bitmap && r.cwd == fs.cwd
    ensures exists slot :: 0 <= slot < SLOTS && !InUse(fs.sb.inodes[slot]) &&
              (forall j :: 0 <= j < slot ==> InUse(fs.sb.inodes[j])) &&
              r.sb.inodes == fs.sb.inodes[slot := r.sb.inodes[slot]] &&
              InUse(r.sb.inodes[slot]) && Size(r.sb.inodes[slot]) == size &&
              NameOf(r.sb.inodes[slot]) == Trim(name) && ParentOf(r.sb.inodes[slot]) == fs.cwd &&
              IsDirectory(r.sb.inodes[slot]) == (size == 0) &&
              r.sb.inodes[slot].startBlock == StartByteAsWritten(ScanAsWritten(fs.sb.bitmap, size, 1, 0, -1))
  {
    TrimKeepsCString(name);
    FileSystem(Superblock(fs.sb.bitmap,
                          fs.sb.inodes[FirstUnusedFrom(fs.sb.inodes, 0).value :=
                                         EntryAsWritten(fs.sb.inodes[FirstUnusedFrom(fs.sb.inodes, 0).value],
                                                        Trim(name), size,
                                                        ScanAsWritten(fs.sb.bitmap, size, 1, 0, -1), fs.cwd)]),
               fs.cwd)
  }

  /** The record `fs_create` writes: the corrected record with the start
      byte the scan left. */
  function EntryAsWritten(prior: Inode, name: seq<Byte>, size: nat, start: int, parent: Parent): (e: Inode)
    requires IsCString(name) && |name| <= NAME_LEN && size < 128 && -1 <= start < BLOCKS
    requires parent.Root? || parent.index < ROOT_PARENT
    ensures InUse(e) && Size(e) == size && NameOf(e) == name && ParentOf(e) == parent
    ensures IsDirectory(e) == (size == 0) && e.startBlock == StartByteAsWritten(start)
  {
    NewEntry(prior, name, size, 0, parent).(startBlock := StartByteAsWritten(start))
  }

  /** The blank disk at the root. */
  const Blank: FileSystem := FileSystem(EmptyDisk(), Root)

  lemma BlankFacts()
    ensures forall i :: 0 <= i < SLOTS ==> Blank.sb.inodes[i] == ZeroInode
    ensures forall b :: 0 <= b < BLOCKS ==> !Blank.sb.bitmap[b]
  {
  }

  /** A name that create stores unchanged: one to five bytes, no NUL, no
      white space at either end. */
  predicate PlainName(n: seq<Byte>)
  {
    IsCString(n) && Trimmed(n) && 1 <= |n| <= NAME_LEN
  }

  /** On a free bitmap a size-0 scan that has started never stops early. */
  lemma {:induction false} ScanFreeSizeZero(i: nat, run: nat, start: int)
    requires 1 <= i && 1 <= start < BLOCKS && 1 <= run
    ensures ScanAsWritten(EmptyDisk().bitmap, 0, i, run, start) == start
    decreases BLOCKS - i
  {
    BlankFacts();
    if i < BLOCKS {
      ScanFreeSizeZero(i + 1, run + 1, start);
    }
  }

  /** What the as-written create leaves on the blank disk: the new record in
      slot 0, the bitmap untouched. */
  lemma CreateAsWrittenOnBlank(n: seq<Byte>, size: nat) returns (e: Inode)
    requires PlainName(n) && size < 128
    ensures exists i :: 0 <= i < SLOTS && !InUse(Blank.sb.inodes[i])
    ensures CreateAsWritten(Blank, n, size) == FileSystem(Superblock(EmptyDisk().bitmap, EmptyDisk().inodes[0 := e]), Root)
    ensures InUse(e) && Size(e) == size && NameOf(e) == n && ParentIndex(e) == ROOT_PARENT
    ensures IsDirectory(e) == (size == 0) && e.name[0] != 0
    ensures e.startBlock == StartByteAsWritten(ScanAsWritten(EmptyDisk().bitmap, size, 1, 0, -1))
  {
    BlankFacts();
    TrimIdentity(n);
    assert !InUse(Blank.sb.inodes[0]);
    var r := CreateAsWritten(Blank, n, size);
    var slot :| 0 <= slot < SLOTS && !InUse(Blank.sb.inodes[slot]) &&
                (forall j :: 0 <= j < slot ==> InUse(Blank.sb.inodes[j])) &&
                r.sb.inodes == Blank.sb.inodes[slot := r.sb.inodes[slot]] &&
                InUse(r.sb.inodes[slot]) && Size(r.sb.inodes[slot]) == size &&
                NameOf(r.sb.inodes[slot]) == n && ParentOf(r.sb.inodes[slot]) == Root &&
                IsDirectory(r.sb.inodes[slot]) == (size == 0) &&
                r.sb.inodes[slot].startBlock == StartByteAsWritten(ScanAsWritten(Blank.sb.bitmap, size, 1, 0, -1));
    assert slot == 0;
    e := r.sb.inodes[0];
    assert e.name[0] != 0 by {
      assert CName(e.name) == n;
    }
  }

  /** What the corrected create leaves on the blank disk: the new record in
      slot 0 and, for a file, blocks `1 .. size` marked used. */
  lemma CreateOnBlank(n: seq<Byte>, size: nat) returns (e: Inode)
    requires PlainName(n) && size < 128
    ensures Create(Blank, n, size).Ok?
    ensures var fs := Create(Blank, n, size).value;
            fs.cwd == Root && fs.sb.inodes == EmptyDisk().inodes[0 := e] &&
            (forall b :: 0 <= b < BLOCKS ==> fs.sb.bitmap[b] == (1 <= b < 1 + size)) &&
            Consistent(fs.sb)
    ensures InUse(e) && Size(e) == size && NameOf(e) == n && ParentIndex(e) == ROOT_PARENT
    ensures IsDirectory(e) == (size == 0) && Start(e) == (if size == 0 then 0 else 1)
  {
    BlankFacts();
    TrimIdentity(n);
    EmptyDiskConsistent();
    var t := Blank.sb.inodes;
    assert !InUse(t[0]);
    assert !Matches(t, 0, ROOT_PARENT, n, false);
    if size > 0 {
      assert RunFree(Blank.sb.bitmap, 1, size);
    }
    var r := Create(Blank, n, size);
    assert r.Ok?;
    var fs := r.value;
    var slot: nat :| CreatedAt(Blank, fs, slot, n, size);
    e := fs.sb.inodes[slot];
    assert NewEntryAt(Blank, fs, e, n, size);
    assert slot == 0;
    assert fs.sb.inodes == EmptyDisk().inodes[0 := e];
    CreatePreservesConsistency(Blank, n, size);
  }

  /** A file created as written on the blank disk leaves its blocks marked
      free, so the checker reports code 1; the corrected create keeps the
      disk consistent. */
  lemma CreateLeavesRangeFree(n: seq<Byte>)
    requires PlainName(n)
    ensures exists i :: 0 <= i < SLOTS && !InUse(Blank.sb.inodes[i])
    ensures FirstFailing(CreateAsWritten(Blank, n, 3).sb) == 1
    ensures Create(Blank, n, 3).Ok? && Consistent(Create(Blank, n, 3).value.sb)
  {
    var e := CreateAsWrittenOnBlank(n, 3);
    var _ := CreateOnBlank(n, 3);
    BlankFacts();
    var bm := EmptyDisk().bitmap;
    assert ScanAsWritten(bm, 3, 1, 0, -1) == 1 by {
      assert ScanAsWritten(bm, 3, 3, 2, 1) == 1;
      assert ScanAsWritten(bm, 3, 2, 1, 1) == 1;
    }
    var sb := CreateAsWritten(Blank, n, 3).sb;
    assert Covers(sb.inodes[0], 1) && !MarkedUsed(sb.bitmap, 1);
    assert !Holds(sb, 1);
  }

  /** A directory created as written on the blank disk gets start block 1,
      so the checker reports code 5; the corrected create gives it block 0
      and keeps the disk consistent. */
  lemma CreateDirectoryStartsAtOne(n: seq<Byte>)
    requires PlainName(n)
    ensures exists i :: 0 <= i < SLOTS && !InUse(Blank.sb.inodes[i])
    ensures FirstFailing(CreateAsWritten(Blank, n, 0).sb) == 5
    ensures Create(Blank, n, 0).Ok? && Consistent(Create(Blank, n, 0).value.sb)
  {
    var e := CreateAsWrittenOnBlank(n, 0);
    var _ := CreateOnBlank(n, 0);
    DirectoryScanOnBlank();
    LoneEntryHolds(e);
    var sb := CreateAsWritten(Blank, n, 0).sb;
    assert !SlotRule(sb.inodes, 5, sb.inodes[0]);
  }

  /** On the blank disk the size-0 scan as written ends with block 1. */
  lemma DirectoryScanOnBlank()
    ensures ScanAsWritten(EmptyDisk().bitmap, 0, 1, 0, -1) == 1
  {
    BlankFacts();
    ScanFreeSizeZero(2, 1, 1);
  }

  /** A disk holding one entry in slot 0, which covers no block and sits at
      the root, passes rules 1 to 4 and 6. */
  lemma LoneEntryHolds(e: Inode)
    requires InUse(e) && Size(e) == 0 && ParentIndex(e) == ROOT_PARENT && e.name[0] != 0
    requires !IsDirectory(e) ==> 1 <= Start(e) <= 127
    ensures var sb := Superblock(EmptyDisk().bitmap, EmptyDisk().inodes[0 := e]);
            Holds(sb, 1) && Holds(sb, 2) && Holds(sb, 3) && Holds(sb, 4) && Holds(sb, 6)
  {
    var sb := Superblock(EmptyDisk().bitmap, EmptyDisk().inodes[0 := e]);
    var t := sb.inodes;
    assert forall i :: 1 <= i < SLOTS ==> t[i] == ZeroInode;
    assert forall i, b :: 0 <= i < SLOTS ==> !Covers(t[i], b);
  }

  /** Creating the same directory twice as written gives two entries with
      one name, so the checker's rule 2 fails; the corrected create refuses
      the second. */
  lemma CreateDuplicateName(n: seq<Byte>)
    requires PlainName(n)
    ensures exists i :: 0 <= i < SLOTS && !InUse(Blank.sb.inodes[i])
    ensures var once := CreateAsWritten(Blank, n, 0);
            CwdOk(once) && (exists i :: 0 <= i < SLOTS && !InUse(once.sb.inodes[i])) &&
            !Holds(CreateAsWritten(once, n, 0).sb, 2)
    ensures Create(Blank, n, 0).Ok? && Create(Create(Blank, n, 0).value, n, 0) == Err(NameExists)
  {
    var e := CreateAsWrittenOnBlank(n, 0);
    var c := CreateOnBlank(n, 0);
    BlankFacts();
    TrimIdentity(n);
    var once := CreateAsWritten(Blank, n, 0);
    var t1 := once.sb.inodes;
    assert !InUse(t1[1]);
    var twice := CreateAsWritten(once, n, 0);
    var t2 := twice.sb.inodes;
    var s2 :| 0 <= s2 < SLOTS && !InUse(t1[s2]) &&
              (forall j :: 0 <= j < s2 ==> InUse(t1[j])) &&
              t2 == t1[s2 := t2[s2]] &&
              InUse(t2[s2]) && NameOf(t2[s2]) == n && ParentOf(t2[s2]) == Root;
    assert s2 == 1;
    assert Key(t2[0]) == Key(t2[1]);
    var fs := Create(Blank, n, 0).value;
    assert Matches(fs.sb.inodes, 0, ROOT_PARENT, n, false);
    assert !InUse(fs.sb.inodes[1]);
  }

  // ---------------------------------------------------------------------
  // Delete

  /** The slot the source takes for a directory: the last slot below `k`
      whose start block equals `s`. */
  function LastWithStart(t: Table, s: nat, k: nat): (r: Option<nat>)
    requires k <= SLOTS
    ensures r.Some? ==> r.value < k && Start(t[r.value]) == s
    ensures r.Some? ==> forall j :: r.value < j < k ==> Start(t[j]) != s
    ensures r.None? ==> forall j :: 0 <= j < k ==> Start(t[j]) != s
  {
    if k == 0 then None
    else if Start(t[k - 1]) == s then Some(k - 1)
    else LastWithStart(t, s, k - 1)
  }

  /** Some slot, in use or not, carries parent index `p`. */
  predicate AnyWithParent(t: Table, p: nat)
  {
    exists i :: 0 <= i < SLOTS && ParentIndex(t[i]) == p
  }

  /** `fs_delete` as written; `None` stands for a call that never returns.
      A name that is not found is looked up anyway and yields the all-zero
      record, which frees nothing. A file's blocks are freed but its slot is
      left as it was. A directory's own slot is never cleared: with no slot
      under the index it computes, nothing happens; with one, it calls
      itself on the same record for ever. */
  function DeleteAsWritten(fs: FileSystem, name: seq<Byte>): (r: Option<FileSystem>)
    requires CwdOk(fs)
    ensures r.Some? ==> r.value.sb.inodes == fs.sb.inodes && r.value.cwd == fs.cwd
    ensures r.Some? ==> forall b :: 0 <= b < BLOCKS && r.value.sb.bitmap[b] ==> fs.sb.bitmap[b]
  {
    DeleteNodeAsWritten(fs, LookedUp(fs.sb.inodes, CwdCode(fs), Trim(name), false))
  }

  /** The record the source's map gives for `name`: the entry when there is
      one, else the all-zero record the lookup inserts. */
  function LookedUp(t: Table, d: nat, name: seq<Byte>, dirOnly: bool): (n: Inode)
    ensures n == ZeroInode || exists i :: 0 <= i < SLOTS && Matches(t, i, d, name, dirOnly) && n == t[i]
  {
    match FindFrom(t, d, name, dirOnly, 0)
    case None => ZeroInode
    case Some(i) => t[i]
  }

  /** `delete_file` or `delete_directory` as written on the record `node`. */
  function DeleteNodeAsWritten(fs: FileSystem, node: Inode): (r: Option<FileSystem>)
    ensures r.Some? ==> r.value.sb.inodes == fs.sb.inodes && r.value.cwd == fs.cwd
    ensures r.Some? ==> forall b :: 0 <= b < BLOCKS && r.value.sb.bitmap[b] ==> fs.sb.bitmap[b]
  {
    if IsDirectory(node) then
      match LastWithStart(fs.sb.inodes, Start(node), SLOTS)
      case None => None
      case Some(idx) => if AnyWithParent(fs.sb.inodes, idx) then None else Some(fs)
    else
      Some(FileSystem(Superblock(MarkRange(fs.sb.bitmap, Start(node), Start(node) + Size(node), false),
                                 fs.sb.inodes), fs.cwd))
  }

  /** Deleting a file as written frees its blocks but keeps its slot, so the
      checker reports code 1; the corrected delete clears the slot and keeps
      the disk consistent. */
  lemma DeleteFileKeepsSlot(n: seq<Byte>)
    requires PlainName(n)
    ensures Create(Blank, n, 3).Ok?
    ensures var fs := Create(Blank, n, 3).value;
            DeleteAsWritten(fs, n).Some? &&
            InUse(DeleteAsWritten(fs, n).value.sb.inodes[0]) &&
            FirstFailing(DeleteAsWritten(fs, n).value.sb) == 1 &&
            Delete(fs, n).Ok? && !InUse(Delete(fs, n).value.sb.inodes[0]) &&
            Consistent(Delete(fs, n).value.sb)
  {
    var e := CreateOnBlank(n, 3);
    var fs := Create(Blank, n, 3).value;
    BlankFacts();
    TrimIdentity(n);
    var t := fs.sb.inodes;
    assert Matches(t, 0, ROOT_PARENT, n, false);
    assert FindFrom(t, ROOT_PARENT, n, false, 0) == Some(0);
    var r := DeleteAsWritten(fs, n);
    assert r.value.sb.bitmap == MarkRange(fs.sb.bitmap, 1, 4, false);
    assert Covers(r.value.sb.inodes[0], 1) && !MarkedUsed(r.value.sb.bitmap, 1);
    assert !Holds(r.value.sb, 1);
    DeletePreservesConsistency(fs, n);
    var d := Delete(fs, n);
    var i :| 0 <= i < SLOTS && Matches(t, i, ROOT_PARENT, n, false) && DeletedAt(fs, d.value, i);
    assert i == 0;
  }

  /** On a disk holding only one empty directory, deleting it as written
      changes nothing: the directory stays, since slot 125, the last slot
      with start block 0, has no children. The corrected delete clears its
      slot. */
  lemma DeleteEmptyDirectoryKeepsIt(n: seq<Byte>)
    requires PlainName(n)
    ensures Create(Blank, n, 0).Ok?
    ensures var fs := Create(Blank, n, 0).value;
            InUse(fs.sb.inodes[0]) &&
            DeleteAsWritten(fs, n) == Some(fs) &&
            Delete(fs, n).Ok? && !InUse(Delete(fs, n).value.sb.inodes[0])
  {
    var e := CreateOnBlank(n, 0);
    var fs := Create(Blank, n, 0).value;
    BlankFacts();
    TrimIdentity(n);
    var t := fs.sb.inodes;
    assert Matches(t, 0, ROOT_PARENT, n, false);
    assert FindFrom(t, ROOT_PARENT, n, false, 0) == Some(0);
    assert t[125] == ZeroInode;
    assert LastWithStart(t, 0, SLOTS) == Some(125);
    assert !AnyWithParent(t, 125) by {
      forall i | 0 <= i < SLOTS
        ensures ParentIndex(t[i]) != 125
      {
        if i != 0 {
          assert t[i] == ZeroInode;
        }
      }
    }
    var d := Delete(fs, n);
    var i :| 0 <= i < SLOTS && Matches(t, i, ROOT_PARENT, n, false) && DeletedAt(fs, d.value, i);
    assert i == 0;
  }

  /** A disk holding directory `dn` in slot 125 and, inside it, the file
      `xn` in slot 0 and block 1. */
  function NestedDisk(dn: seq<Byte>, xn: seq<Byte>): (fs: FileSystem)
    requires PlainName(dn) && PlainName(xn)
    ensures fs.cwd == Root
    ensures forall c :: 0 <= c < BLOCKS ==> fs.sb.bitmap[c] == (c == 1)
    ensures forall i :: 1 <= i < 125 ==> fs.sb.inodes[i] == ZeroInode
  {
    var file := NewEntry(ZeroInode, xn, 1, 1, Slot(125));
    var t := [file] + EmptyDisk().inodes[1..125] + [DirEntry(dn, Root)];
    FileSystem(Superblock(EmptyDisk().bitmap[1 := true], t), Root)
  }

  /** The directory in slot 125 and the file in slot 0. */
  lemma NestedDiskEntries(dn: seq<Byte>, xn: seq<Byte>)
    requires PlainName(dn) && PlainName(xn)
    ensures var t := NestedDisk(dn, xn).sb.inodes;
            WellFormedDirectory(t[125]) && NameOf(t[125]) == dn && ParentIndex(t[125]) == ROOT_PARENT
            && t[125].name[0] != 0
    ensures var t := NestedDisk(dn, xn).sb.inodes;
            InUse(t[0]) && !IsDirectory(t[0]) && NameOf(t[0]) == xn && ParentIndex(t[0]) == 125
            && Start(t[0]) == 1 && Size(t[0]) == 1 && t[0].name[0] != 0
  {
    var t := NestedDisk(dn, xn).sb.inodes;
    assert t[0] == NewEntry(ZeroInode, xn, 1, 1, Slot(125));
    assert t[125] == DirEntry(dn, Root);
  }

  /** The file's block is marked used and is the only block any entry
      claims. */
  lemma NestedDiskAllocation(dn: seq<Byte>, xn: seq<Byte>)
    requires PlainName(dn) && PlainName(xn)
    ensures Holds(NestedDisk(dn, xn).sb, 1)
  {
    var sb := NestedDisk(dn, xn).sb;
    NestedDiskEntries(dn, xn);
    forall i, b | 0 <= i < SLOTS && 0 <= b < RANGE_LIMIT && Covers(sb.inodes[i], b)
      ensures i == 0 && b == 1
    {
    }
  }

  /** Only slots 0 and 125 are in use, and their parents differ. */
  lemma NestedDiskNames(dn: seq<Byte>, xn: seq<Byte>)
    requires PlainName(dn) && PlainName(xn)
    ensures Holds(NestedDisk(dn, xn).sb, 2)
  {
    NestedDiskEntries(dn, xn);
  }

  lemma NestedDiskSlots(dn: seq<Byte>, xn: seq<Byte>)
    requires PlainName(dn) && PlainName(xn)
    ensures forall k :: 3 <= k <= 6 ==> Holds(NestedDisk(dn, xn).sb, k)
  {
    var t := NestedDisk(dn, xn).sb.inodes;
    NestedDiskEntries(dn, xn);
    BlankFacts();
    forall i | 0 <= i < SLOTS
      ensures SlotRule(t, 3, t[i]) && SlotRule(t, 4, t[i]) && SlotRule(t, 5, t[i]) && SlotRule(t, 6, t[i])
    {
      if i != 0 && i != 125 {
        assert t[i] == ZeroInode;
      }
    }
  }

  /** The nested disk passes every rule of the checker. */
  lemma NestedDiskConsistent(dn: seq<Byte>, xn: seq<Byte>)
    requires PlainName(dn) && PlainName(xn)
    ensures Consistent(NestedDisk(dn, xn).sb)
  {
    NestedDiskAllocation(dn, xn);
    NestedDiskNames(dn, xn);
    NestedDiskSlots(dn, xn);
  }

  /** Deleting a directory that holds a file never returns as written when
      the directory sits in slot 125, the last slot with start block 0, which
      is where the source looks for its children; the corrected delete clears
      the directory and the file inside it and keeps the disk consistent. */
  lemma DeleteNonEmptyDirectoryDiverges(dn: seq<Byte>, xn: seq<Byte>)
    requires PlainName(dn) && PlainName(xn)
    ensures DeleteAsWritten(NestedDisk(dn, xn), dn).None?
    ensures var r := Delete(NestedDisk(dn, xn), dn);
            r.Ok? && !InUse(r.value.sb.inodes[125]) && !InUse(r.value.sb.inodes[0]) &&
            Consistent(r.value.sb)
  {
    NestedDeleteAsWrittenLoops(dn, xn);
    NestedDeleteCorrected(dn, xn);
  }

  /** The lookup of `dn` at the root finds slot 125. */
  lemma NestedDiskFindsDirectory(dn: seq<Byte>, xn: seq<Byte>)
    requires PlainName(dn) && PlainName(xn)
    ensures Trim(dn) == dn
    ensures FindFrom(NestedDisk(dn, xn).sb.inodes, ROOT_PARENT, dn, false, 0) == Some(125)
  {
    var t := NestedDisk(dn, xn).sb.inodes;
    NestedDiskEntries(dn, xn);
    TrimIdentity(dn);
    assert Matches(t, 125, ROOT_PARENT, dn, false);
    assert !Matches(t, 0, ROOT_PARENT, dn, false);
    assert forall i :: 0 <= i < 125 ==> !Matches(t, i, ROOT_PARENT, dn, false);
  }

  lemma NestedDeleteAsWrittenLoops(dn: seq<Byte>, xn: seq<Byte>)
    requires PlainName(dn) && PlainName(xn)
    ensures DeleteAsWritten(NestedDisk(dn, xn), dn).None?
  {
    var t := NestedDisk(dn, xn).sb.inodes;
    NestedDiskFindsDirectory(dn, xn);
    NestedDiskEntries(dn, xn);
    assert LastWithStart(t, 0, SLOTS) == Some(125);
    assert AnyWithParent(t, 125) by {
      assert ParentIndex(t[0]) == 125;
    }
  }

  lemma NestedDeleteCorrected(dn: seq<Byte>, xn: seq<Byte>)
    requires PlainName(dn) && PlainName(xn)
    ensures var r := Delete(NestedDisk(dn, xn), dn);
            r.Ok? && !InUse(r.value.sb.inodes[125]) && !InUse(r.value.sb.inodes[0]) &&
            Consistent(r.value.sb)
  {
    var fs := NestedDisk(dn, xn);
    var t := fs.sb.inodes;
    NestedDiskFindsDirectory(dn, xn);
    NestedDiskEntries(dn, xn);
    NestedDiskConsistent(dn, xn);
    assert Matches(t, 125, ROOT_PARENT, dn, false);
    DeletePreservesConsistency(fs, dn);
    var d := Delete(fs, dn);
    var i :| 0 <= i < SLOTS && Matches(t, i, ROOT_PARENT, dn, false) && DeletedAt(fs, d.value, i);
    assert i == 125;
    assert !ChildOf(d.value.sb.inodes, 0, 125);
  }

  /** A disk holding directory `dn` in slot 0 and, inside it, the file `xn`
      in slot 1 and block 1. */
  function LowDisk(dn: seq<Byte>, xn: seq<Byte>): (fs: FileSystem)
    requires PlainName(dn) && PlainName(xn)
    ensures fs.cwd == Root
    ensures forall i :: 2 <= i < SLOTS ==> fs.sb.inodes[i] == ZeroInode
  {
    var t := [DirEntry(dn, Root), NewEntry(ZeroInode, xn, 1, 1, Slot(0))] + EmptyDisk().inodes[2..];
    FileSystem(Superblock(EmptyDisk().bitmap[1 := true], t), Root)
  }

  /** Deleting a directory that holds a file, from a slot below 125, does
      nothing as written: the children are looked for under slot 125, the
      last slot with start block 0, and there are none there. */
  lemma DeleteLowDirectoryKeepsIt(dn: seq<Byte>, xn: seq<Byte>)
    requires PlainName(dn) && PlainName(xn)
    ensures var fs := LowDisk(dn, xn);
            InUse(fs.sb.inodes[0]) && IsDirectory(fs.sb.inodes[0]) &&
            InUse(fs.sb.inodes[1]) && ParentIndex(fs.sb.inodes[1]) == 0 &&
            DeleteAsWritten(fs, dn) == Some(fs)
  {
    var fs := LowDisk(dn, xn);
    var t := fs.sb.inodes;
    BlankFacts();
    TrimIdentity(dn);
    var file := NewEntry(ZeroInode, xn, 1, 1, Slot(0));
    assert t[0] == DirEntry(dn, Root) && t[1] == file;
    assert Matches(t, 0, ROOT_PARENT, dn, false);
    assert FindFrom(t, ROOT_PARENT, dn, false, 0) == Some(0);
    assert t[125] == ZeroInode;
    assert LastWithStart(t, 0, SLOTS) == Some(125);
    assert !AnyWithParent(t, 125) by {
      forall i | 0 <= i < SLOTS
        ensures ParentIndex(t[i]) != 125
      {
        if i >= 2 {
          assert t[i] == ZeroInode;
        }
      }
    }
  }

  // ---------------------------------------------------------------------
  // Change directory

  /** `fs_cd` as written; `None` stands for reading an uninitialised index.
      Any entry of the current directory is accepted, a missing one is
      replaced by the all-zero record, and the new directory is the last slot
      whose start block equals the entry's. */
  function CdAsWritten(fs: FileSystem, name: seq<Byte>): (r: Option<FileSystem>)
    requires CwdOk(fs)
    ensures r.Some? ==> r.value.sb == fs.sb && CwdOk(r.value)
    ensures r.Some? && name != DOT && name != DOTDOT ==>
              r.value.cwd.Slot? && r.value.cwd.index < SLOTS
  {
    if name == DOT || name == DOTDOT then
      if CwdOk(Cd(fs, name).value) then Some(Cd(fs, name).value) else None
    else
      match LastWithStart(fs.sb.inodes, Start(LookedUp(fs.sb.inodes, CwdCode(fs), name, false)), SLOTS)
      case None => None
      case Some(idx) => Some(fs.(cwd := Slot(idx)))
  }

  /** With `n` the only entry, a directory in slot 0, the source moves to
      slot 125, the last slot with start block 0; the corrected cd moves to
      slot 0. */
  lemma CdPicksLastZeroStart(n: seq<Byte>)
    requires PlainName(n) && n != DOT && n != DOTDOT
    ensures Create(Blank, n, 0).Ok?
    ensures var fs := Create(Blank, n, 0).value;
            CdAsWritten(fs, n) == Some(fs.(cwd := Slot(125))) &&
            Cd(fs, n) == Ok(fs.(cwd := Slot(0)))
  {
    var e := CreateOnBlank(n, 0);
    var fs := Create(Blank, n, 0).value;
    BlankFacts();
    var t := fs.sb.inodes;
    assert Matches(t, 0, ROOT_PARENT, n, true);
    assert FindFrom(t, ROOT_PARENT, n, false, 0) == Some(0);
    assert FindFrom(t, ROOT_PARENT, n, true, 0) == Some(0);
    assert t[125] == ZeroInode;
    assert LastWithStart(t, 0, SLOTS) == Some(125);
  }

  /** The source enters a file: with `n` a file, cd moves into its slot; the
      corrected cd refuses it. */
  lemma CdIntoFile(n: seq<Byte>)
    requires PlainName(n) && n != DOT && n != DOTDOT
    ensures Create(Blank, n, 3).Ok?
    ensures var fs := Create(Blank, n, 3).value;
            !IsDirectory(fs.sb.inodes[0]) &&
            CdAsWritten(fs, n) == Some(fs.(cwd := Slot(0))) &&
            Cd(fs, n) == Err(DirNotFound)
  {
    var e := CreateOnBlank(n, 3);
    var fs := Create(Blank, n, 3).value;
    BlankFacts();
    var t := fs.sb.inodes;
    assert Matches(t, 0, ROOT_PARENT, n, false);
    assert FindFrom(t, ROOT_PARENT, n, false, 0) == Some(0);
    assert forall i :: 0 <= i < SLOTS ==> !Matches(t, i, ROOT_PARENT, n, true);
    assert forall i :: 1 <= i < SLOTS ==> Start(t[i]) != 1;
    assert LastWithStart(t, 1, SLOTS) == Some(0);
  }

  // ---------------------------------------------------------------------
  // Mount

  /** `fs_mount` as written: the superblock is installed whatever the
      checker says, and the current directory is left as it was. */
  function MountAsWritten(fs: FileSystem, sb: Superblock): FileSystem
  {
    FileSystem(sb, fs.cwd)
  }

  /** An in-use root directory with an empty name. */
  const Nameless: Inode := Inode([0, 0, 0, 0, 0], 128, 0, 255)

  /** The as-written mount installs a disk the checker rejects with code 3;
      the corrected mount refuses it. */
  lemma MountInstallsInconsistent()
    ensures var sb := Superblock(EmptyDisk().bitmap, EmptyDisk().inodes[0 := Nameless]);
            FirstFailing(sb) == 3 &&
            MountAsWritten(Blank, sb).sb == sb &&
            Mount(sb) == Err(Inconsistent(3))
  {
    BlankFacts();
    var sb := Superblock(EmptyDisk().bitmap, EmptyDisk().inodes[0 := Nameless]);
    assert forall i :: 1 <= i < SLOTS ==> sb.inodes[i] == ZeroInode;
    assert Holds(sb, 1);
    assert Holds(sb, 2);
    assert !ZeroOrNamed(sb.inodes[0]);
  }

  // ---------------------------------------------------------------------
  // The checker's rule 2

  /** The key rule 2 uses as written: the parent's name, "/", the entry's
      name. For the root parent the source reads past the table; what it
      finds there is the parameter `rootName`. */
  function PathKeyAsWritten(t: Table, rootName: seq<Byte>, n: Inode): seq<Byte>
  {
    ParentNameAsWritten(t, rootName, n) + [47] + NameOf(n)
  }

  /** The name rule 2 reads for an entry's parent. */
  function ParentNameAsWritten(t: Table, rootName: seq<Byte>, n: Inode): (p: seq<Byte>)
  {
    if ParentIndex(n) < SLOTS then NameOf(t[ParentIndex(n)])
    else if ParentIndex(n) == ROOT_PARENT then rootName
    else []
  }

  /** Two as-written keys agree exactly when the parents' names agree and the
      entries' own names agree, as long as neither own name holds a "/";
      two entries under different parents of the same name therefore clash. */
  lemma PathKeysEqual(t: Table, rootName: seq<Byte>, n1: Inode, n2: Inode)
    requires 47 !in NameOf(n1) && 47 !in NameOf(n2)
    ensures PathKeyAsWritten(t, rootName, n1) == PathKeyAsWritten(t, rootName, n2) <==>
              ParentNameAsWritten(t, rootName, n1) == ParentNameAsWritten(t, rootName, n2) &&
              NameOf(n1) == NameOf(n2)
  {
    var p1, p2 := ParentNameAsWritten(t, rootName, n1), ParentNameAsWritten(t, rootName, n2);
    var m1, m2 := NameOf(n1), NameOf(n2);
    var k1, k2 := p1 + [47] + m1, p2 + [47] + m2;
    if k1 == k2 {
      SlashFromEnd(p1, m1, p2, m2);
      SlashFromEnd(p2, m2, p1, m1);
      assert |p1| == |p2|;
      assert p1 == k1[..|p1|] && p2 == k2[..|p2|];
      assert m1 == k1[|p1| + 1..] && m2 == k2[|p2| + 1..];
    }
  }

  /** Reading a key from its end, the first "/" met ends the own name. */
  lemma SlashFromEnd(p1: seq<Byte>, m1: seq<Byte>, p2: seq<Byte>, m2: seq<Byte>)
    requires 47 !in m2
    requires p1 + [47] + m1 == p2 + [47] + m2
    ensures |m1| >= |m2|
  {
    var k1 := p1 + [47] + m1;
    assert k1[|p1|] == 47;
  }

  /** Rule 2 as written: no two in-use entries share a path key. */
  predicate NamesUniqueAsWritten(t: Table, rootName: seq<Byte>)
  {
    forall i, k :: 0 <= i < k < SLOTS && InUse(t[i]) && InUse(t[k]) ==>
      PathKeyAsWritten(t, rootName, t[i]) != PathKeyAsWritten(t, rootName, t[k])
  }

  /** Directories `a` and `b` at the root, a directory `a` inside `b`, and a
      directory `x` in each `a`. */
  function TwoADisk(a: seq<Byte>, b: seq<Byte>, x: seq<Byte>): (sb: Superblock)
    requires PlainName(a) && PlainName(b) && PlainName(x)
    ensures forall c :: 0 <= c < BLOCKS ==> !sb.bitmap[c]
    ensures forall i :: 5 <= i < SLOTS ==> sb.inodes[i] == ZeroInode
  {
    var entries := [DirEntry(a, Root), DirEntry(b, Root), DirEntry(a, Slot(1)),
                    DirEntry(x, Slot(0)), DirEntry(x, Slot(2))];
    var t := entries + EmptyDisk().inodes[5..];
    Superblock(EmptyDisk().bitmap, t)
  }

  /** The record create writes for a new directory in a blank slot. */
  function DirEntry(name: seq<Byte>, parent: Parent): (n: Inode)
    requires PlainName(name) && (parent.Root? || parent.index < ROOT_PARENT)
    ensures WellFormedDirectory(n) && NameOf(n) == name && ParentIndex(n) == ParentCode(parent)
  {
    NewEntry(ZeroInode, name, 0, 0, parent)
  }

  /** An in-use, named directory of size 0 at block 0. */
  predicate WellFormedDirectory(n: Inode)
  {
    InUse(n) && IsDirectory(n) && Size(n) == 0 && Start(n) == 0 && NameOf(n) != []
  }

  /** A disk whose first `n` slots hold well-formed directories, each under
      the root or an earlier slot, with distinct keys, and nothing else,
      passes every rule. */
  lemma DirectoriesOnlyConsistent(sb: Superblock, n: nat)
    requires n <= SLOTS
    requires forall i :: n <= i < SLOTS ==> sb.inodes[i] == ZeroInode
    requires forall i :: 0 <= i < n ==> WellFormedDirectory(sb.inodes[i])
    requires forall i :: 0 <= i < n ==>
               ParentIndex(sb.inodes[i]) == ROOT_PARENT || ParentIndex(sb.inodes[i]) < i
    requires forall i, k :: 0 <= i < k < n ==> Key(sb.inodes[i]) != Key(sb.inodes[k])
    ensures Consistent(sb)
  {
    var t := sb.inodes;
    forall i, c | 0 <= i < SLOTS && 0 <= c < RANGE_LIMIT
      ensures !Covers(t[i], c)
    {
    }
    forall i | 0 <= i < SLOTS
      ensures SlotRule(t, 3, t[i]) && SlotRule(t, 6, t[i])
    {
      if i < n {
        assert t[i].name[0] == NameOf(t[i])[0];
        if ParentIndex(t[i]) != ROOT_PARENT {
          assert WellFormedDirectory(t[ParentIndex(t[i])]);
        }
      }
    }
    assert Holds(sb, 1) && Holds(sb, 2) && Holds(sb, 3);
    assert Holds(sb, 4) && Holds(sb, 5) && Holds(sb, 6);
  }

  /** The five directories, slot by slot. */
  lemma TwoADiskEntries(a: seq<Byte>, b: seq<Byte>, x: seq<Byte>)
    requires PlainName(a) && PlainName(b) && PlainName(x)
    ensures var t := TwoADisk(a, b, x).inodes;
            t[0] == DirEntry(a, Root) && t[1] == DirEntry(b, Root) && t[2] == DirEntry(a, Slot(1))
            && t[3] == DirEntry(x, Slot(0)) && t[4] == DirEntry(x, Slot(2))
  {
  }

  /** The five directories are well formed, each under the root or an
      earlier slot. */
  lemma TwoADiskShape(a: seq<Byte>, b: seq<Byte>, x: seq<Byte>)
    requires PlainName(a) && PlainName(b) && PlainName(x)
    ensures var t := TwoADisk(a, b, x).inodes;
            forall i :: 0 <= i < 5 ==>
              WellFormedDirectory(t[i]) && (ParentIndex(t[i]) == ROOT_PARENT || ParentIndex(t[i]) < i)
  {
    TwoADiskEntries(a, b, x);
  }

  /** No two of the five directories share a parent and a name. */
  lemma TwoADiskKeys(a: seq<Byte>, b: seq<Byte>, x: seq<Byte>)
    requires PlainName(a) && PlainName(b) && PlainName(x) && a != b
    ensures var t := TwoADisk(a, b, x).inodes;
            forall i, k :: 0 <= i < k < 5 ==> Key(t[i]) != Key(t[k])
  {
    var t := TwoADisk(a, b, x).inodes;
    TwoADiskParents(a, b, x);
    forall i, k | 0 <= i < k < 5
      ensures Key(t[i]) != Key(t[k])
    {
      if i == 0 {
        if k == 1 {} else if k == 2 {} else if k == 3 {} else {}
      } else if i == 1 {
        if k == 2 {} else if k == 3 {} else {}
      } else if i == 2 {
        if k == 3 {} else {}
      } else {
      }
    }
  }

  /** The parent of each directory, and the names of the two at the root. */
  lemma TwoADiskParents(a: seq<Byte>, b: seq<Byte>, x: seq<Byte>)
    requires PlainName(a) && PlainName(b) && PlainName(x)
    ensures var t := TwoADisk(a, b, x).inodes;
            ParentIndex(t[0]) == ROOT_PARENT && ParentIndex(t[1]) == ROOT_PARENT
            && ParentIndex(t[2]) == 1 && ParentIndex(t[3]) == 0 && ParentIndex(t[4]) == 2
            && NameOf(t[0]) == a && NameOf(t[1]) == b
  {
    TwoADiskEntries(a, b, x);
  }

  /** The disk passes every rule of the checker. */
  lemma TwoADiskConsistent(a: seq<Byte>, b: seq<Byte>, x: seq<Byte>)
    requires PlainName(a) && PlainName(b) && PlainName(x) && a != b
    ensures Consistent(TwoADisk(a, b, x))
  {
    TwoADiskShape(a, b, x);
    TwoADiskKeys(a, b, x);
    DirectoriesOnlyConsistent(TwoADisk(a, b, x), 5);
  }

  /** The disk passes every rule of the checker, yet the two `x` entries
      have the same as-written key, `a` then "/" then `x`, whatever the root
      name reads as. */
  lemma PathKeyRejectsConsistentDisk(a: seq<Byte>, b: seq<Byte>, x: seq<Byte>)
    requires PlainName(a) && PlainName(b) && PlainName(x) && a != b
    ensures Consistent(TwoADisk(a, b, x))
    ensures forall rootName :: !NamesUniqueAsWritten(TwoADisk(a, b, x).inodes, rootName)
  {
    TwoADiskConsistent(a, b, x);
    var t := TwoADisk(a, b, x).inodes;
    forall rootName
      ensures !NamesUniqueAsWritten(t, rootName)
    {
      assert PathKeyAsWritten(t, rootName, t[3]) == PathKeyAsWritten(t, rootName, t[4]);
    }
  }
}

=== FILE: layout.dfy ===
/** The superblock of the simulated disk: a free bitmap of one bit per block and
a fixed table of 126 eight-byte inode records.

An inode record is `name[5]`, `used_size`, `start_block`, `dir_parent`. Two of
its bytes are bit-packed:
- `used_size`: the top bit is the in-use flag, the low seven bits the size in
  blocks (0 for a directory);
- `dir_parent`: the top bit is the directory flag, the low seven bits the
  parent's slot index, where 126 is reserved as invalid and 127 stands for the
  root directory, which has no slot of its own.
 */
module Layout {
  import opened Bytes

  /** Number of inode slots in the table. */
  const SLOTS: nat := 126
  /** Number of blocks on the disk; block 0 holds the superblock itself. */
  const BLOCKS: nat := 128
  /** Parent index that no entry may carry. */
  const INVALID_PARENT: nat := 126
  /** Parent index that denotes the root directory. */
  const ROOT_PARENT: nat := 127
  /** Width of the fixed name field. */
  const NAME_LEN: nat := 5

  type NameField = s: seq<Byte> | |s| == NAME_LEN witness [0, 0, 0, 0, 0]

  /** One raw inode record. The three packed fields are held as the values
      of their bytes; their stored form is in the `Codec` module. */
  datatype Inode = Inode(name: NameField, usedSize: Byte, startBlock: Byte, dirParent: Byte)

  /** The all-zero record that marks an unused slot. */
  const ZeroInode: Inode := Inode([0, 0, 0, 0, 0], 0, 0, 0)

  /** The free bitmap, one entry per block: true = in use, false = free. */
  type Bitmap = b: seq<bool> | |b| == BLOCKS witness seq(128, _ => false)

  type Table = t: seq<Inode> | |t| == SLOTS witness seq(126, _ => ZeroInode)

  /** The whole persisted state of a disk. */
  datatype Superblock = Superblock(bitmap: Bitmap, inodes: Table)

  /** A decoded parent reference: the root sentinel or a slot index. */
  datatype Parent = Root | Slot(index: nat)

  // ---------------------------------------------------------------------
  // Decoding the packed bytes

  /** Bit 7 (`& 0x80`) of a byte, the flag half of `used_size` and
      `dir_parent`; `TopBit` shows it is this value test. */
  predicate HighBit(b: Byte) { b >= 128 }

  /** The low seven bits (`& 0x7f`) of a byte, the size or parent half;
      `TopBit` shows they are worth this. */
  function LowBits(b: Byte): (s: nat)
    ensures s < 128
  {
    b % 128
  }

  /** Reads a seven-bit parent index: 127 is the root, everything else a slot. */
  function DecodeParent(p: nat): Parent
  {
    if p == ROOT_PARENT then Root else Slot(p)
  }

  predicate InUse(n: Inode) { HighBit(n.usedSize) }

  function Size(n: Inode): nat { LowBits(n.usedSize) }

  predicate IsDirectory(n: Inode) { HighBit(n.dirParent) }

  function ParentIndex(n: Inode): nat { LowBits(n.dirParent) }

  function ParentOf(n: Inode): Parent { DecodeParent(ParentIndex(n)) }

  function Start(n: Inode): nat { n.startBlock }

  /** The source's emptiness test: it looks at `name[0]`, `used_size`,
      `start_block` and `dir_parent` only, never at `name[1..5]`. */
  predicate AllBytesZero(n: Inode)
  {
    n.dirParent == 0 && n.usedSize == 0 && n.name[0] == 0 && n.startBlock == 0
  }

  /** No block range reaches this far: a start block is at most 255 and a
      size at most 127. */
  const RANGE_LIMIT: nat := 384

  /** True when block `b` lies in the block range of the in-use entry `n`.
      Every entry in use is taken into account, whatever its kind. */
  predicate Covers(n: Inode, b: nat)
  {
    InUse(n) && Start(n) <= b < Start(n) + Size(n)
  }

  lemma CoversBelowLimit(n: Inode, b: nat)
    ensures Covers(n, b) ==> b < RANGE_LIMIT
  {
  }

  // ---------------------------------------------------------------------
  // Encoding the packed bytes, as the create operation builds them

  /** The seven-bit code of a parent reference. */
  function ParentCode(p: Parent): (c: nat)
    requires p.Root? || p.index < ROOT_PARENT
    ensures c < 128 && DecodeParent(c) == p
  {
    match p
    case Root => ROOT_PARENT
    case Slot(i) => i
  }

  /** `used_size` of a new entry: the size with the in-use flag set
      (`size | 0x80`). */
  function EncodeUsedSize(size: nat): (b: Byte)
    requires size < 128
    ensures HighBit(b) && LowBits(b) == size
  {
    size + 128
  }

  /** `dir_parent` of a new entry: the parent code, with the directory flag
      set exactly for a directory. */
  function EncodeDirParent(p: Parent, directory: bool): (b: Byte)
    requires p.Root? || p.index < ROOT_PARENT
    ensures HighBit(b) == directory
    ensures DecodeParent(LowBits(b)) == p
  {
    if directory then ParentCode(p) + 128 else ParentCode(p)
  }

  // ---------------------------------------------------------------------
  // Names

  /** A string that a C string can hold: no NUL byte inside. */
  predicate IsCString(s: seq<Byte>)
  {
    forall k :: 0 <= k < |s| ==> s[k] != 0
  }

  /** The C string a name field holds: its bytes up to the first NUL, or all
      of them when the field has none. */
  function CName(s: seq<Byte>): (r: seq<Byte>)
    ensures IsCString(r)
    ensures |r| <= |s| && r == s[..|r|]
    ensures |r| == |s| || s[|r|] == 0
  {
    if |s| == 0 || s[0] == 0 then [] else [s[0]] + CName(s[1..])
  }

  /** `strcpy(field, name)`: the name, then its terminating NUL when it fits;
      the bytes past the NUL keep what the field held before. */
  function CopyName(prior: NameField, name: seq<Byte>): (r: NameField)
    requires IsCString(name) && |name| <= NAME_LEN
    ensures CName(r) == name
    ensures r[0] == 0 <==> name == []
    ensures |name| < NAME_LEN ==>
              r[..|name|] == name && r[|name|] == 0 && r[|name| + 1..] == prior[|name| + 1..]
  {
    if |name| == NAME_LEN then name
    else
      var r: NameField := name + [0] + prior[|name| + 1..];
      assert r[..|name|] == name;
      CNameOfTerminated(r, |name|);
      r
  }

  lemma {:induction false} CNameOfTerminated(s: seq<Byte>, n: nat)
    requires n < |s| && s[n] == 0 && IsCString(s[..n])
    ensures CName(s) == s[..n]
  {
    if n > 0 {
      assert s[0] == s[..n][0];
      assert s[1..][..n - 1] == s[1..n];
      CNameOfTerminated(s[1..], n - 1);
    }
  }

  /** The name an entry is known by. */
  function NameOf(n: Inode): seq<Byte> { CName(n.name) }

  /** True when the entry's parent index names a slot of the table: it is
      neither the root sentinel nor the reserved invalid index. */
  predicate IsSlotParent(n: Inode) { ParentIndex(n) < INVALID_PARENT }
}

=== FILE: operations.dfy ===
/** The file and directory operations over an explicit state: the superblock
plus the current directory, which the source keeps in globals.

The source's map of the current directory's entries is not stored: it is the
derived `Listing`, the in-use slots whose parent index is the current
directory's code.
 */
module Operations {
  import opened Bytes
  import opened Errors
  import opened Layout
  import opened FreeBitmap
  import opened Whitespace
  import opened Checker
  import opened Allocator

  /** A mounted disk: its superblock and the current directory. */
  datatype FileSystem = FileSystem(sb: Superblock, cwd: Parent)

  /** The current directory is the root or a slot of the table. */
  predicate CwdOk(fs: FileSystem)
  {
    fs.cwd.Root? || fs.cwd.index < SLOTS
  }

  /** The parent index that entries of the current directory carry. */
  function CwdCode(fs: FileSystem): nat
    requires CwdOk(fs)
  {
    ParentCode(fs.cwd)
  }

  const DOT: seq<Byte> := [46]
  const DOTDOT: seq<Byte> := [46, 46]

  // ---------------------------------------------------------------------
  // Derived directory structure

  /** Slot `i` holds an in-use entry whose parent index is `d`. */
  predicate ChildOf(t: Table, i: nat, d: nat)
    requires i < SLOTS
  {
    InUse(t[i]) && ParentIndex(t[i]) == d
  }

  /** Slot `i` holds an in-use entry of directory `d` called `name`, and a
      directory when `dirOnly` is set. */
  predicate Matches(t: Table, i: nat, d: nat, name: seq<Byte>, dirOnly: bool)
    requires i < SLOTS
  {
    ChildOf(t, i, d) && NameOf(t[i]) == name && (dirOnly ==> IsDirectory(t[i]))
  }

  /** The in-use children of directory `d` from slot `k` on, in slot order. */
  function ChildrenFrom(t: Table, d: nat, k: nat): (r: seq<nat>)
    requires k <= SLOTS
    ensures forall i :: i in r <==> k <= i < SLOTS && ChildOf(t, i, d)
    ensures forall a, b :: 0 <= a < b < |r| ==> r[a] < r[b]
    decreases SLOTS - k
  {
    if k == SLOTS then []
    else if ChildOf(t, k, d) then
      var rest := ChildrenFrom(t, d, k + 1);
      assert forall b :: 0 <= b < |rest| ==> k < rest[b] by {
        forall b | 0 <= b < |rest| ensures k < rest[b] {
          assert rest[b] in rest;
        }
      }
      [k] + rest
    else ChildrenFrom(t, d, k + 1)
  }

  /** The entries of the current directory, in slot order. */
  function Listing(fs: FileSystem): (r: seq<nat>)
    requires CwdOk(fs)
    ensures forall i :: i in r <==> 0 <= i < SLOTS && ChildOf(fs.sb.inodes, i, CwdCode(fs))
  {
    ChildrenFrom(fs.sb.inodes, CwdCode(fs), 0)
  }

  /** The lowest slot from `k` on that `Matches`. */
  function FindFrom(t: Table, d: nat, name: seq<Byte>, dirOnly: bool, k: nat): (r: Option<nat>)
    requires k <= SLOTS
    ensures r.Some? ==> k <= r.value < SLOTS && Matches(t, r.value, d, name, dirOnly)
    ensures r.Some? ==> forall j :: k <= j < r.value ==> !Matches(t, j, d, name, dirOnly)
    ensures r.None? ==> forall j :: k <= j < SLOTS ==> !Matches(t, j, d, name, dirOnly)
    decreases SLOTS - k
  {
    if k == SLOTS then None
    else if Matches(t, k, d, name, dirOnly) then Some(k)
    else FindFrom(t, d, name, dirOnly, k + 1)
  }

  /** The lowest unused slot from `k` on. */
  function FirstUnusedFrom(t: Table, k: nat): (r: Option<nat>)
    requires k <= SLOTS
    ensures r.Some? ==> k <= r.value < SLOTS && !InUse(t[r.value])
    ensures r.Some? ==> forall j :: k <= j < r.value ==> InUse(t[j])
    ensures r.None? ==> forall j :: k <= j < SLOTS ==> InUse(t[j])
    decreases SLOTS - k
  {
    if k == SLOTS then None
    else if !InUse(t[k]) then Some(k)
    else FirstUnusedFrom(t, k + 1)
  }

  /** The set of in-use slots; deletion makes it shrink. */
  function InUseSlots(t: Table): set<nat>
  {
    set i | 0 <= i < SLOTS && InUse(t[i])
  }

  // ---------------------------------------------------------------------
  // Create

  /** The record `fs_create` writes into slot `prior`: the name copied over
      the old field, the in-use flag over the size, the start block, and the
      parent code with the directory flag set for size 0. */
  function NewEntry(prior: Inode, name: seq<Byte>, size: nat, start: nat, parent: Parent): (n: Inode)
    requires IsCString(name) && |name| <= NAME_LEN
    requires size < 128 && start < 256
    requires parent.Root? || parent.index < ROOT_PARENT
    ensures InUse(n) && Size(n) == size && Start(n) == start
    ensures IsDirectory(n) == (size == 0)
    ensures ParentOf(n) == parent && ParentIndex(n) == ParentCode(parent)
    ensures NameOf(n) == name
  {
    var dp := EncodeDirParent(parent, size == 0);
    ParentCodeOfBits(dp, parent);
    Inode(CopyName(prior.name, name), EncodeUsedSize(size), start, dp)
  }

  /** The seven-bit code a parent decodes from is that parent's code. */
  lemma ParentCodeOfBits(b: Byte, p: Parent)
    requires p.Root? || p.index < ROOT_PARENT
    requires DecodeParent(LowBits(b)) == p
    ensures LowBits(b) == ParentCode(p)
  {
  }

  /** `fs` became `fs'` by creating `name` of `size` blocks in slot `slot`:
      the lowest unused slot now holds the new entry, no other slot changed,
      and a file's blocks are the first-fit run, now marked used. */
  ghost predicate CreatedAt(fs: FileSystem, fs': FileSystem, slot: nat, name: seq<Byte>, size: nat)
  {
    var t, t' := fs.sb.inodes, fs'.sb.inodes;
    && slot < SLOTS
    && !InUse(t[slot]) && (forall j :: 0 <= j < slot ==> InUse(t[j]))
    && (forall j :: 0 <= j < SLOTS && j != slot ==> t'[j] == t[j])
    && fs'.cwd == fs.cwd
    && NewEntryAt(fs, fs', t'[slot], name, size)
  }

  /** Entry `e`, written by a create, is in use in the current directory with
      the given name and size; a directory starts at block 0 and leaves the
      bitmap alone, a file holds the first-fit run, now marked used. */
  ghost predicate NewEntryAt(fs: FileSystem, fs': FileSystem, e: Inode, name: seq<Byte>, size: nat)
  {
    && InUse(e) && Size(e) == size && ParentOf(e) == fs.cwd && NameOf(e) == name
    && IsDirectory(e) == (size == 0)
    && (size == 0 ==> Start(e) == 0 && fs'.sb.bitmap == fs.sb.bitmap)
    && (size > 0 ==>
          1 <= Start(e) && Start(e) + size <= BLOCKS && RunFree(fs.sb.bitmap, Start(e), size)
          && (forall s :: 1 <= s < Start(e) ==> !RunFree(fs.sb.bitmap, s, size))
          && (forall b :: 0 <= b < BLOCKS ==>
                fs'.sb.bitmap[b] == (Start(e) <= b < Start(e) + size || fs.sb.bitmap[b])))
  }

  /** `fs_create`: takes the lowest unused slot, trims the name, refuses a
      name the current directory already holds, and gives a file its
      first-fit run of blocks; a directory (size 0) gets no blocks and start
      block 0. */
  function Create(fs: FileSystem, name: seq<Byte>, size: nat): (r: Result<FileSystem>)
    requires CwdOk(fs)
    requires IsCString(name) && |Trim(name)| <= NAME_LEN
    requires size < 128
    ensures r == Err(SuperblockFull) <==> forall i :: 0 <= i < SLOTS ==> InUse(fs.sb.inodes[i])
    ensures r.Err? ==> r.error in {SuperblockFull, NameExists, NoSpace}
    ensures r.Ok? ==> exists slot :: CreatedAt(fs, r.value, slot, Trim(name), size)
  {
    var t, bm := fs.sb.inodes, fs.sb.bitmap;
    var n := Trim(name);
    TrimKeepsCString(name);
    match FirstUnusedFrom(t, 0)
    case None => Err(SuperblockFull)
    case Some(slot) =>
      if FindFrom(t, CwdCode(fs), n, false, 0).Some? then Err(NameExists)
      else if size == 0 then
        var r := FileSystem(Superblock(bm, t[slot := NewEntry(t[slot], n, 0, 0, fs.cwd)]), fs.cwd);
        CreatedDirectory(fs, slot, n);
        Ok(r)
      else
        match FirstFit(bm, size)
        case None => Err(NoSpace)
        case Some(start) =>
          var r := FileSystem(Superblock(MarkRange(bm, start, start + size, true),
                                         t[slot := NewEntry(t[slot], n, size, start, fs.cwd)]), fs.cwd);
          CreatedFile(fs, slot, n, size, start);
          Ok(r)
  }

  /** Create refuses a name exactly when the table has room and the
      current directory already holds the trimmed name. */
  lemma CreateNameExists(fs: FileSystem, name: seq<Byte>, size: nat)
    requires CwdOk(fs) && IsCString(name) && |Trim(name)| <= NAME_LEN && size < 128
    ensures Create(fs, name, size) == Err(NameExists) <==>
              (exists i :: 0 <= i < SLOTS && !InUse(fs.sb.inodes[i])) &&
              (exists i :: 0 <= i < SLOTS && Matches(fs.sb.inodes, i, CwdCode(fs), Trim(name), false))
  {
    var t := fs.sb.inodes;
    var found := FindFrom(t, CwdCode(fs), Trim(name), false, 0);
    match FirstUnusedFrom(t, 0)
    case None =>
    case Some(slot) =>
      assert !InUse(t[slot]);
      if found.Some? {
        assert Matches(t, found.value, CwdCode(fs), Trim(name), false);
      }
  }

  /** Create runs out of room exactly when the table has room, the name is
      new, and a file asks for more blocks than any free run holds. */
  lemma CreateNoSpace(fs: FileSystem, name: seq<Byte>, size: nat)
    requires CwdOk(fs) && IsCString(name) && |Trim(name)| <= NAME_LEN && size < 128
    ensures Create(fs, name, size) == Err(NoSpace) <==>
              (exists i :: 0 <= i < SLOTS && !InUse(fs.sb.inodes[i])) &&
              (forall i :: 0 <= i < SLOTS ==> !Matches(fs.sb.inodes, i, CwdCode(fs), Trim(name), false)) &&
              size > 0 && (forall s :: 1 <= s ==> !RunFree(fs.sb.bitmap, s, size))
  {
    var t := fs.sb.inodes;
    var found := FindFrom(t, CwdCode(fs), Trim(name), false, 0);
    match FirstUnusedFrom(t, 0)
    case None =>
    case Some(slot) =>
      assert !InUse(t[slot]);
      if found.Some? {
        assert Matches(t, found.value, CwdCode(fs), Trim(name), false);
      } else if size > 0 {
        match FirstFit(fs.sb.bitmap, size)
        case None =>
        case Some(start) =>
          assert RunFree(fs.sb.bitmap, start, size);
      }
  }

  lemma TrimKeepsCString(name: seq<Byte>)
    requires IsCString(name)
    ensures IsCString(Trim(name))
  {
    var n := Trim(name);
    var i :| 0 <= i <= |name| - |n| && n == name[i..i + |n|]
             && AllSpace(name[..i]) && AllSpace(name[i + |n|..]);
    forall k | 0 <= k < |n| ensures n[k] != 0 {
      assert n[k] == name[i + k];
    }
  }

  lemma CreatedDirectory(fs: FileSystem, slot: nat, n: seq<Byte>)
    requires CwdOk(fs) && IsCString(n) && |n| <= NAME_LEN
    requires slot < SLOTS && !InUse(fs.sb.inodes[slot])
    requires forall j :: 0 <= j < slot ==> InUse(fs.sb.inodes[j])
    ensures var t := fs.sb.inodes;
            CreatedAt(fs, FileSystem(Superblock(fs.sb.bitmap, t[slot := NewEntry(t[slot], n, 0, 0, fs.cwd)]), fs.cwd),
                      slot, n, 0)
  {
  }

  lemma CreatedFile(fs: FileSystem, slot: nat, n: seq<Byte>, size: nat, start: nat)
    requires CwdOk(fs) && IsCString(n) && |n| <= NAME_LEN
    requires slot < SLOTS && !InUse(fs.sb.inodes[slot])
    requires forall j :: 0 <= j < slot ==> InUse(fs.sb.inodes[j])
    requires 1 <= size < 128 && FirstFit(fs.sb.bitmap, size) == Some(start)
    ensures var t := fs.sb.inodes;
            CreatedAt(fs, FileSystem(Superblock(MarkRange(fs.sb.bitmap, start, start + size, true),
                                                t[slot := NewEntry(t[slot], n, size, start, fs.cwd)]), fs.cwd),
                      slot, n, size)
  {
  }

  // ---------------------------------------------------------------------
  // Delete

  /** `delete_file` applied to the slot itself: frees a file's blocks and
      clears the slot to all-zero bytes. A directory holds no blocks. */
  function Remove(fs: FileSystem, i: nat): (r: FileSystem)
    requires i < SLOTS
    ensures r.sb.inodes == fs.sb.inodes[i := ZeroInode] && r.cwd == fs.cwd
    ensures forall b :: 0 <= b < BLOCKS ==>
              r.sb.bitmap[b] == (if !IsDirectory(fs.sb.inodes[i]) && Covers(fs.sb.inodes[i], b)
                                 then false else fs.sb.bitmap[b])
  {
    var n := fs.sb.inodes[i];
    var bm := if IsDirectory(n) || !InUse(n) then fs.sb.bitmap
              else MarkRange(fs.sb.bitmap, Start(n), Start(n) + Size(n), false);
    FileSystem(Superblock(bm, fs.sb.inodes[i := ZeroInode]), fs.cwd)
  }

  lemma RemoveShrinks(t: Table, i: nat)
    requires i < SLOTS && InUse(t[i])
    ensures InUseSlots(t[i := ZeroInode]) == InUseSlots(t) - {i}
    ensures |InUseSlots(t[i := ZeroInode])| < |InUseSlots(t)|
  {
    assert InUseSlots(t[i := ZeroInode]) == InUseSlots(t) - {i};
  }

  lemma SubsetSmaller(a: set<nat>, b: set<nat>)
    requires a <= b
    ensures |a| <= |b|
  {
    assert b == a + (b - a);
  }

  /** No in-use entry sits under an in-use slot that is not a directory. */
  ghost predicate NoEntryUnderFile(t: Table)
  {
    forall j :: 0 <= j < SLOTS && InUse(t[j]) && IsSlotParent(t[j]) && InUse(t[ParentIndex(t[j])]) ==>
      IsDirectory(t[ParentIndex(t[j])])
  }

  /** Slot `j` holds an in-use entry whose parent slot is not in use. */
  ghost predicate Orphan(t: Table, j: nat)
    requires j < SLOTS
  {
    InUse(t[j]) && IsSlotParent(t[j]) && !InUse(t[ParentIndex(t[j])])
  }

  /** `r` arises from `fs` by clearing in-use slots and freeing blocks, and
      nothing else. */
  ghost predicate ClearsOnly(fs: FileSystem, r: FileSystem)
  {
    && r.cwd == fs.cwd
    && InUseSlots(r.sb.inodes) <= InUseSlots(fs.sb.inodes)
    && (forall j :: 0 <= j < SLOTS ==> r.sb.inodes[j] == fs.sb.inodes[j] || r.sb.inodes[j] == ZeroInode)
    && (forall b :: 0 <= b < BLOCKS && r.sb.bitmap[b] ==> fs.sb.bitmap[b])
  }

  /** Every slot that `r` cleared held an in-use entry whose parent is `d` or
      a slot that `r` cleared as well. */
  ghost predicate ClearedUnder(fs: FileSystem, r: FileSystem, d: nat)
  {
    forall j :: 0 <= j < SLOTS && r.sb.inodes[j] != fs.sb.inodes[j] ==>
      InUse(fs.sb.inodes[j]) &&
      (ParentIndex(fs.sb.inodes[j]) == d ||
       (IsSlotParent(fs.sb.inodes[j]) &&
        r.sb.inodes[ParentIndex(fs.sb.inodes[j])] != fs.sb.inodes[ParentIndex(fs.sb.inodes[j])]))
  }

  /** No slot from `k` on holds an in-use child of `d`. */
  ghost predicate NoChildFrom(t: Table, d: nat, k: nat)
  {
    forall j :: k <= j < SLOTS ==> !ChildOf(t, j, d)
  }

  /** Every orphan of `r` already had a parent slot that `fs` did not use. */
  ghost predicate OrphansOld(fs: FileSystem, r: FileSystem)
  {
    forall j :: 0 <= j < SLOTS && Orphan(r.sb.inodes, j) ==>
      !InUse(fs.sb.inodes[ParentIndex(r.sb.inodes[j])])
  }

  /** A block `r` freed was covered by an entry `r` cleared, and every block
      of every file `r` cleared is free in `r`. */
  ghost predicate FreesExactly(fs: FileSystem, r: FileSystem)
  {
    && (forall b :: 0 <= b < BLOCKS && fs.sb.bitmap[b] && !r.sb.bitmap[b] ==>
          exists j :: 0 <= j < SLOTS && r.sb.inodes[j] != fs.sb.inodes[j] && Covers(fs.sb.inodes[j], b))
    && (forall j, b | 0 <= j < SLOTS && 0 <= b < BLOCKS && r.sb.inodes[j] != fs.sb.inodes[j]
          :: !IsDirectory(fs.sb.inodes[j]) && Covers(fs.sb.inodes[j], b) ==> !r.sb.bitmap[b])
  }

  lemma FreesExactlyTrans(a: FileSystem, b: FileSystem, c: FileSystem)
    requires ClearsOnly(a, b) && ClearsOnly(b, c)
    requires FreesExactly(a, b) && FreesExactly(b, c)
    ensures FreesExactly(a, c)
  {
    var ta, tb, tc := a.sb.inodes, b.sb.inodes, c.sb.inodes;
    forall x | 0 <= x < BLOCKS && a.sb.bitmap[x] && !c.sb.bitmap[x]
      ensures exists j :: 0 <= j < SLOTS && tc[j] != ta[j] && Covers(ta[j], x)
    {
      if b.sb.bitmap[x] {
        var j :| 0 <= j < SLOTS && tc[j] != tb[j] && Covers(tb[j], x);
        assert tb[j] == ta[j];
      } else {
        var j :| 0 <= j < SLOTS && tb[j] != ta[j] && Covers(ta[j], x);
        assert tc[j] != ta[j];
      }
    }
    forall j, x | 0 <= j < SLOTS && 0 <= x < BLOCKS && tc[j] != ta[j] && !IsDirectory(ta[j]) && Covers(ta[j], x)
      ensures !c.sb.bitmap[x]
    {
      if tb[j] == ta[j] {
        assert tc[j] != tb[j];
      }
    }
  }

  lemma ClearsOnlyTrans(a: FileSystem, b: FileSystem, c: FileSystem)
    requires ClearsOnly(a, b) && ClearsOnly(b, c)
    ensures ClearsOnly(a, c)
  {
  }

  lemma ClearsOnlyKeepsNoEntryUnderFile(fs: FileSystem, r: FileSystem)
    requires ClearsOnly(fs, r) && NoEntryUnderFile(fs.sb.inodes)
    ensures NoEntryUnderFile(r.sb.inodes)
  {
  }

  lemma RemoveClears(fs: FileSystem, k: nat, d: nat)
    requires k < SLOTS && ChildOf(fs.sb.inodes, k, d)
    ensures ClearsOnly(fs, Remove(fs, k))
    ensures FreesExactly(fs, Remove(fs, k))
    ensures ClearedUnder(fs, Remove(fs, k), d)
    ensures |InUseSlots(Remove(fs, k).sb.inodes)| < |InUseSlots(fs.sb.inodes)|
  {
    RemoveShrinks(fs.sb.inodes, k);
    var r := Remove(fs, k);
    forall b | 0 <= b < BLOCKS && fs.sb.bitmap[b] && !r.sb.bitmap[b]
      ensures exists j :: 0 <= j < SLOTS && r.sb.inodes[j] != fs.sb.inodes[j] && Covers(fs.sb.inodes[j], b)
    {
      assert r.sb.inodes[k] != fs.sb.inodes[k];
    }
  }

  /** Deletes every entry below directory code `d` whose slot is `k` or
      above: each in-use child is cleared and, when it is a directory, its
      own children are then deleted the same way. Clearing a slot before
      visiting its children makes the count of in-use slots the measure, so
      even a table with a parent cycle is handled. */
  function DeleteChildren(fs: FileSystem, d: nat, k: nat): (r: FileSystem)
    requires k <= SLOTS
    ensures ClearsOnly(fs, r) && FreesExactly(fs, r)
    ensures NoChildFrom(r.sb.inodes, d, k)
    ensures NoEntryUnderFile(fs.sb.inodes) ==> OrphansOld(fs, r)
    ensures ClearedUnder(fs, r, d)
    decreases |InUseSlots(fs.sb.inodes)|, SLOTS - k
  {
    var t := fs.sb.inodes;
    if k == SLOTS then fs
    else if ChildOf(t, k, d) then
      var fs1 := Remove(fs, k);
      RemoveClears(fs, k, d);
      var fs2 := if IsDirectory(t[k]) then DeleteChildren(fs1, k, 0) else fs1;
      SubsetSmaller(InUseSlots(fs2.sb.inodes), InUseSlots(fs1.sb.inodes));
      var r := DeleteChildren(fs2, d, k + 1);
      ChildStep(fs, fs1, fs2, r, d, k);
      r
    else
      var r := DeleteChildren(fs, d, k + 1);
      assert NoChildFrom(r.sb.inodes, d, k) by {
        assert !ChildOf(r.sb.inodes, k, d);
      }
      r
  }

  /** One child step of `DeleteChildren`: slot `k` cleared (`fs1`), its
      subtree deleted (`fs2`), then the later children (`r`). */
  lemma ChildStep(fs: FileSystem, fs1: FileSystem, fs2: FileSystem, r: FileSystem, d: nat, k: nat)
    requires k < SLOTS && ChildOf(fs.sb.inodes, k, d)
    requires fs1 == Remove(fs, k)
    requires ClearsOnly(fs1, fs2) && FreesExactly(fs1, fs2) && ClearedUnder(fs1, fs2, k)
    requires NoEntryUnderFile(fs1.sb.inodes) ==> OrphansOld(fs1, fs2)
    requires IsDirectory(fs.sb.inodes[k]) ==> NoChildFrom(fs2.sb.inodes, k, 0)
    requires !IsDirectory(fs.sb.inodes[k]) ==> fs2 == fs1
    requires ClearsOnly(fs2, r) && FreesExactly(fs2, r) && ClearedUnder(fs2, r, d)
    requires NoEntryUnderFile(fs2.sb.inodes) ==> OrphansOld(fs2, r)
    requires NoChildFrom(r.sb.inodes, d, k + 1)
    ensures ClearsOnly(fs, r) && FreesExactly(fs, r)
    ensures NoChildFrom(r.sb.inodes, d, k)
    ensures NoEntryUnderFile(fs.sb.inodes) ==> OrphansOld(fs, r)
    ensures ClearedUnder(fs, r, d)
  {
    var t, t1, t2, tr := fs.sb.inodes, fs1.sb.inodes, fs2.sb.inodes, r.sb.inodes;
    RemoveClears(fs, k, d);
    ClearsOnlyTrans(fs, fs1, fs2);
    ClearsOnlyTrans(fs, fs2, r);
    FreesExactlyTrans(fs, fs1, fs2);
    FreesExactlyTrans(fs, fs2, r);
    assert !ChildOf(tr, k, d) by {
      assert t1[k] == ZeroInode;
    }
    if NoEntryUnderFile(t) {
      ClearsOnlyKeepsNoEntryUnderFile(fs, fs1);
      ClearsOnlyKeepsNoEntryUnderFile(fs, fs2);
      forall j | 0 <= j < SLOTS && Orphan(t2, j)
        ensures !InUse(t[ParentIndex(t2[j])])
      {
        var p := ParentIndex(t2[j]);
        if p == k {
          assert t2[j] == t[j];
          if IsDirectory(t[k]) {
            assert ChildOf(t2, j, k);
          }
        }
      }
      forall j | 0 <= j < SLOTS && Orphan(tr, j)
        ensures !InUse(t[ParentIndex(tr[j])])
      {
        assert tr[j] == t2[j];
        assert Orphan(t2, j);
      }
    }
    forall j | 0 <= j < SLOTS && tr[j] != t[j]
      ensures InUse(t[j]) && (ParentIndex(t[j]) == d ||
               (IsSlotParent(t[j]) && tr[ParentIndex(t[j])] != t[ParentIndex(t[j])]))
    {
      if tr[j] != t2[j] {
        assert t2[j] == t[j];
      } else if t2[j] != t1[j] {
        assert t1[j] == t[j];
        var p := ParentIndex(t[j]);
        if p != k {
          assert t1[p] == t[p];
        }
      }
    }
  }

  /** `fs` became `r` by deleting the entry in slot `i`: a file's slot is
      cleared and its blocks freed; a directory's slot is cleared, no in-use
      entry is left under it, and every other slot that was cleared held an
      entry whose parent slot was cleared too. */
  ghost predicate DeletedAt(fs: FileSystem, r: FileSystem, i: nat)
    requires i < SLOTS
  {
    var t, tr := fs.sb.inodes, r.sb.inodes;
    && tr[i] == ZeroInode && r.cwd == fs.cwd
    && (!IsDirectory(t[i]) ==>
          tr == t[i := ZeroInode] &&
          forall b :: 0 <= b < BLOCKS ==> r.sb.bitmap[b] == (fs.sb.bitmap[b] && !Covers(t[i], b)))
    && (IsDirectory(t[i]) ==>
          ClearsOnly(fs, r) && FreesExactly(fs, r) && NoChildFrom(tr, i, 0) &&
          forall j :: 0 <= j < SLOTS && j != i && tr[j] != t[j] ==>
            InUse(t[j]) && IsSlotParent(t[j]) && tr[ParentIndex(t[j])] != t[ParentIndex(t[j])])
  }

  /** `fs_delete`: looks the trimmed name up among the current directory's
      entries; a file is cleared and its blocks freed, a directory is cleared
      and then everything below it is deleted. */
  function Delete(fs: FileSystem, name: seq<Byte>): (r: Result<FileSystem>)
    requires CwdOk(fs)
    ensures r.Err? <==> forall i :: 0 <= i < SLOTS ==> !Matches(fs.sb.inodes, i, CwdCode(fs), Trim(name), false)
    ensures r.Err? ==> r.error == FileNotFound
    ensures r.Ok? ==> exists i :: 0 <= i < SLOTS && Matches(fs.sb.inodes, i, CwdCode(fs), Trim(name), false) &&
                                  (forall j :: 0 <= j < i ==> !Matches(fs.sb.inodes, j, CwdCode(fs), Trim(name), false)) &&
                                  DeletedAt(fs, r.value, i)
    ensures r.Ok? && NoEntryUnderFile(fs.sb.inodes) ==> OrphansOld(fs, r.value)
  {
    match FindFrom(fs.sb.inodes, CwdCode(fs), Trim(name), false, 0)
    case None => Err(FileNotFound)
    case Some(i) =>
      var fs1 := Remove(fs, i);
      if IsDirectory(fs.sb.inodes[i]) then
        var r := DeleteChildren(fs1, i, 0);
        DeletedDirectory(fs, i, r);
        Ok(r)
      else
        assert DeletedAt(fs, fs1, i);
        FileOrphans(fs, i);
        Ok(fs1)
  }

  lemma FileOrphans(fs: FileSystem, i: nat)
    requires i < SLOTS && InUse(fs.sb.inodes[i]) && !IsDirectory(fs.sb.inodes[i])
    ensures NoEntryUnderFile(fs.sb.inodes) ==> OrphansOld(fs, Remove(fs, i))
  {
    var t, t1 := fs.sb.inodes, Remove(fs, i).sb.inodes;
    if NoEntryUnderFile(t) {
      forall j | 0 <= j < SLOTS && Orphan(t1, j)
        ensures !InUse(t[ParentIndex(t1[j])])
      {
        assert t1[j] == t[j];
      }
    }
  }

  lemma DeletedDirectory(fs: FileSystem, i: nat, r: FileSystem)
    requires i < SLOTS && InUse(fs.sb.inodes[i]) && IsDirectory(fs.sb.inodes[i])
    requires r == DeleteChildren(Remove(fs, i), i, 0)
    ensures DeletedAt(fs, r, i)
    ensures NoEntryUnderFile(fs.sb.inodes) ==> OrphansOld(fs, r)
  {
    var fs1 := Remove(fs, i);
    var t, t1, tr := fs.sb.inodes, fs1.sb.inodes, r.sb.inodes;
    assert ClearsOnly(fs, fs1) && FreesExactly(fs, fs1) by {
      RemoveShrinks(t, i);
    }
    ClearsOnlyTrans(fs, fs1, r);
    FreesExactlyTrans(fs, fs1, r);
    forall j | 0 <= j < SLOTS && j != i && tr[j] != t[j]
      ensures InUse(t[j]) && IsSlotParent(t[j]) && tr[ParentIndex(t[j])] != t[ParentIndex(t[j])]
    {
      assert t1[j] == t[j];
      var p := ParentIndex(t[j]);
      if p != i {
        assert t1[p] == t[p];
      }
    }
    if NoEntryUnderFile(t) {
      ClearsOnlyKeepsNoEntryUnderFile(fs, fs1);
      forall j | 0 <= j < SLOTS && Orphan(tr, j)
        ensures !InUse(t[ParentIndex(tr[j])])
      {
        assert !ChildOf(tr, j, i);
      }
    }
  }

  // ---------------------------------------------------------------------
  // Change directory and mount

  /** `fs_cd`: "." stays, ".." moves to the parent (the root stays put), and
      any other name moves into the lowest-slot directory of that name in the current
      directory. */
  function Cd(fs: FileSystem, name: seq<Byte>): (r: Result<FileSystem>)
    requires CwdOk(fs)
    ensures r.Ok? ==> r.value.sb == fs.sb
    ensures name == DOT ==> r == Ok(fs)
    ensures name == DOTDOT && fs.cwd.Root? ==> r == Ok(fs)
    ensures name == DOTDOT && fs.cwd.Slot? ==> r.Ok? && r.value.cwd == ParentOf(fs.sb.inodes[fs.cwd.index])
    ensures name != DOT && name != DOTDOT ==>
              (r.Err? <==> forall i :: 0 <= i < SLOTS ==> !Matches(fs.sb.inodes, i, CwdCode(fs), name, true))
    ensures r.Err? ==> r.error == DirNotFound
    ensures r.Ok? && name != DOT && name != DOTDOT ==>
              r.value.cwd.Slot? && r.value.cwd.index < SLOTS &&
              Matches(fs.sb.inodes, r.value.cwd.index, CwdCode(fs), name, true) &&
              forall j :: 0 <= j < r.value.cwd.index ==> !Matches(fs.sb.inodes, j, CwdCode(fs), name, true)
    ensures r.Ok? && Holds(fs.sb, 3) && Holds(fs.sb, 6) ==> CwdOk(r.value)
  {
    if name == DOT then Ok(fs)
    else if name == DOTDOT then
      match fs.cwd
      case Root => Ok(fs)
      case Slot(c) =>
        var n := fs.sb.inodes[c];
        assert Holds(fs.sb, 3) && Holds(fs.sb, 6) ==> ParentIndex(n) != INVALID_PARENT by {
          if Holds(fs.sb, 3) && Holds(fs.sb, 6) {
            assert ZeroOrNamed(n) && ParentOk(fs.sb.inodes, n);
          }
        }
        Ok(fs.(cwd := ParentOf(n)))
    else
      match FindFrom(fs.sb.inodes, CwdCode(fs), name, true, 0)
      case None => Err(DirNotFound)
      case Some(i) => Ok(fs.(cwd := Slot(i)))
  }

  /** `fs_mount` on an already decoded superblock: it is installed, with the
      root as current directory, exactly when the checker reports 0. */
  function Mount(sb: Superblock): (r: Result<FileSystem>)
    ensures r.Ok? <==> Consistent(sb)
    ensures r.Ok? ==> r.value == FileSystem(sb, Root) && CwdOk(r.value)
    ensures r.Err? ==> r.error == Inconsistent(FirstFailing(sb)) && 1 <= r.error.code <= 6
  {
    var code := FirstFailing(sb);
    if code == 0 then Ok(FileSystem(sb, Root)) else Err(Inconsistent(code))
  }
}

=== FILE: preservation.dfy ===
/** What the operations promise together: a consistent disk stays consistent
under create, delete and change of directory, deleting what was just created
restores the disk, and ".." undoes a step into a directory.
 */
module Preservation {
  import opened Bytes
  import opened Errors
  import opened Layout
  import opened FreeBitmap
  import opened Whitespace
  import opened Checker
  import opened Operations

  /** A state the operations keep: the superblock passes the checker and the
      current directory is the root or an in-use directory slot. */
  ghost predicate Valid(fs: FileSystem)
  {
    Consistent(fs.sb) &&
    (fs.cwd.Root? || (fs.cwd.index < SLOTS && InUse(fs.sb.inodes[fs.cwd.index]) &&
                      IsDirectory(fs.sb.inodes[fs.cwd.index])))
  }

  /** The blank disk: every block free and every slot zero. */
  function EmptyDisk(): (sb: Superblock)
    ensures forall i :: 0 <= i < SLOTS ==> sb.inodes[i] == ZeroInode
    ensures forall b :: 0 <= b < BLOCKS ==> !sb.bitmap[b]
  {
    Superblock(seq(BLOCKS, _ => false), seq(SLOTS, _ => ZeroInode))
  }

  lemma EmptyDiskConsistent()
    ensures Consistent(EmptyDisk())
    ensures Mount(EmptyDisk()) == Ok(FileSystem(EmptyDisk(), Root))
  {
    var t := EmptyDisk().inodes;
    assert forall i :: 0 <= i < SLOTS ==> t[i] == ZeroInode;
  }

  // ---------------------------------------------------------------------
  // Create

  /** Creating a non-empty name in a valid state gives a valid state. */
  lemma CreatePreservesConsistency(fs: FileSystem, name: seq<Byte>, size: nat)
    requires Valid(fs)
    requires IsCString(name) && |Trim(name)| <= NAME_LEN && Trim(name) != []
    requires size < 128
    requires Create(fs, name, size).Ok?
    ensures Valid(Create(fs, name, size).value)
  {
    var r := Create(fs, name, size).value;
    var n := Trim(name);
    var slot :| CreatedAt(fs, r, slot, n, size);
    CreatedKeepsRules(fs, r, slot, n, size);
  }

  lemma CreatedKeepsRules(fs: FileSystem, r: FileSystem, slot: nat, n: seq<Byte>, size: nat)
    requires Valid(fs) && CwdOk(fs)
    requires CreatedAt(fs, r, slot, n, size) && n != []
    requires forall i :: 0 <= i < SLOTS ==> !Matches(fs.sb.inodes, i, CwdCode(fs), n, false)
    ensures Valid(r)
  {
    var t, tr := fs.sb.inodes, r.sb.inodes;
    var e := tr[slot];
    assert NewEntryAt(fs, r, e, n, size);
    assert ParentIndex(e) == CwdCode(fs);
    assert Holds(fs.sb, 1);
    // Rule 1: the new range was free, so it overlaps no old range.
    forall i, b | 0 <= i < SLOTS && 0 <= b < RANGE_LIMIT && Covers(tr[i], b)
      ensures MarkedUsed(r.sb.bitmap, b)
    {
      if i != slot {
        assert Covers(t[i], b) && MarkedUsed(fs.sb.bitmap, b);
      }
    }
    assert forall b :: Covers(e, b) ==> FreeBlock(fs.sb.bitmap, b);
    assert forall k, b :: 0 <= k < SLOTS && k != slot && 0 <= b < RANGE_LIMIT && Covers(tr[k], b) ==>
      tr[k] == t[k] && MarkedUsed(fs.sb.bitmap, b);
    forall i, k, b | 0 <= i < k < SLOTS && 0 <= b < RANGE_LIMIT && Covers(tr[i], b)
      ensures !Covers(tr[k], b)
    {
      if i != slot && k != slot {
        assert tr[i] == t[i] && tr[k] == t[k] && Holds(fs.sb, 1);
      } else if i == slot {
        assert FreeBlock(fs.sb.bitmap, b);
        assert tr[k] == t[k];
        assert Covers(t[k], b) ==> MarkedUsed(fs.sb.bitmap, b);
      } else {
        assert tr[i] == t[i];
        assert MarkedUsed(fs.sb.bitmap, b);
        assert Covers(e, b) ==> FreeBlock(fs.sb.bitmap, b);
      }
    }
    assert Holds(r.sb, 1);
    // Rule 2: the new key was not taken in the current directory.
    forall i, k | 0 <= i < k < SLOTS && InUse(tr[i]) && InUse(tr[k])
      ensures Key(tr[i]) != Key(tr[k])
    {
      if i == slot {
        assert !Matches(t, k, CwdCode(fs), n, false);
      } else if k == slot {
        assert !Matches(t, i, CwdCode(fs), n, false);
      } else {
        assert Key(t[i]) != Key(t[k]);
      }
    }
    assert Holds(r.sb, 2);
    // Rules 3 to 6, slot by slot.
    forall i | 0 <= i < SLOTS
      ensures ZeroOrNamed(tr[i]) && FileStartOk(tr[i]) && DirectoryShapeOk(tr[i]) && ParentOk(tr, tr[i])
    {
      if i == slot {
        assert e.name[0] != 0;
      } else {
        assert SlotRule(t, 3, t[i]) && SlotRule(t, 4, t[i]) && SlotRule(t, 5, t[i]) && SlotRule(t, 6, t[i]);
        if InUse(t[i]) && ParentIndex(t[i]) != ROOT_PARENT {
          assert ParentIndex(t[i]) != slot;
        }
      }
    }
    assert Holds(r.sb, 3) && Holds(r.sb, 4) && Holds(r.sb, 5) && Holds(r.sb, 6);
    if fs.cwd.Slot? {
      assert fs.cwd.index != slot;
    }
  }

  // ---------------------------------------------------------------------
  // Delete

  /** Clearing slots that leaves no new orphan and frees only blocks of the
      cleared entries keeps every rule. */
  lemma ClearingKeepsConsistency(fs: FileSystem, r: FileSystem)
    requires Consistent(fs.sb)
    requires ClearsOnly(fs, r) && FreesExactly(fs, r) && OrphansOld(fs, r)
    ensures Consistent(r.sb)
  {
    var t, tr := fs.sb.inodes, r.sb.inodes;
    forall i, b | 0 <= i < SLOTS && 0 <= b < RANGE_LIMIT && Covers(tr[i], b)
      ensures MarkedUsed(r.sb.bitmap, b)
    {
      assert tr[i] == t[i] && MarkedUsed(fs.sb.bitmap, b);
      OnlyCover(fs.sb, i, b);
    }
    forall i, k, b | 0 <= i < k < SLOTS && 0 <= b < RANGE_LIMIT && Covers(tr[i], b)
      ensures !Covers(tr[k], b)
    {
      assert tr[i] == t[i];
      if InUse(tr[k]) {
        assert tr[k] == t[k];
      }
    }
    assert Holds(r.sb, 1);
    forall i, k | 0 <= i < k < SLOTS && InUse(tr[i]) && InUse(tr[k])
      ensures Key(tr[i]) != Key(tr[k])
    {
      assert tr[i] == t[i] && tr[k] == t[k];
    }
    assert Holds(r.sb, 2);
    forall i | 0 <= i < SLOTS
      ensures ZeroOrNamed(tr[i]) && FileStartOk(tr[i]) && DirectoryShapeOk(tr[i]) && ParentOk(tr, tr[i])
    {
      if tr[i] != ZeroInode {
        assert tr[i] == t[i];
        assert SlotRule(t, 3, t[i]) && SlotRule(t, 4, t[i]) && SlotRule(t, 5, t[i]) && SlotRule(t, 6, t[i]);
        if InUse(t[i]) && IsSlotParent(t[i]) {
          var p := ParentIndex(t[i]);
          assert InUse(t[p]);
          assert !Orphan(tr, i);
          assert tr[p] == t[p];
        }
      }
    }
    assert Holds(r.sb, 3) && Holds(r.sb, 4) && Holds(r.sb, 5) && Holds(r.sb, 6);
  }

  /** In a table that passes rule 1, a block lies in at most one range. */
  lemma OnlyCover(sb: Superblock, i: nat, b: nat)
    requires Holds(sb, 1) && i < SLOTS && Covers(sb.inodes[i], b)
    ensures forall j :: 0 <= j < SLOTS && j != i ==> !Covers(sb.inodes[j], b)
  {
    CoversBelowLimit(sb.inodes[i], b);
  }

  /** Rule 6 of a consistent table rules out entries under a file. */
  lemma ConsistentNoEntryUnderFile(sb: Superblock)
    requires Consistent(sb)
    ensures NoEntryUnderFile(sb.inodes)
  {
    forall j | 0 <= j < SLOTS && InUse(sb.inodes[j]) && IsSlotParent(sb.inodes[j])
      ensures InUse(sb.inodes[ParentIndex(sb.inodes[j])]) && IsDirectory(sb.inodes[ParentIndex(sb.inodes[j])])
    {
      assert SlotRule(sb.inodes, 6, sb.inodes[j]);
    }
  }

  /** Deleting from a consistent disk leaves it consistent. */
  lemma DeletePreservesConsistency(fs: FileSystem, name: seq<Byte>)
    requires CwdOk(fs) && Consistent(fs.sb)
    requires Delete(fs, name).Ok?
    ensures Consistent(Delete(fs, name).value.sb)
  {
    var r := Delete(fs, name).value;
    ConsistentNoEntryUnderFile(fs.sb);
    var i :| 0 <= i < SLOTS && Matches(fs.sb.inodes, i, CwdCode(fs), Trim(name), false) && DeletedAt(fs, r, i);
    if !IsDirectory(fs.sb.inodes[i]) {
      DeletedFileClears(fs, r, i);
    }
    ClearingKeepsConsistency(fs, r);
  }

  /** Deleting a file clears one slot and frees exactly its blocks. */
  lemma DeletedFileClears(fs: FileSystem, r: FileSystem, i: nat)
    requires i < SLOTS && InUse(fs.sb.inodes[i]) && !IsDirectory(fs.sb.inodes[i])
    requires DeletedAt(fs, r, i)
    ensures ClearsOnly(fs, r) && FreesExactly(fs, r)
  {
    var t, tr := fs.sb.inodes, r.sb.inodes;
    assert InUseSlots(tr) <= InUseSlots(t);
    forall b | 0 <= b < BLOCKS && fs.sb.bitmap[b] && !r.sb.bitmap[b]
      ensures exists j :: 0 <= j < SLOTS && tr[j] != t[j] && Covers(t[j], b)
    {
      assert tr[i] != t[i];
    }
  }

  // ---------------------------------------------------------------------
  // Create, then delete

  /** With no child of `d` from slot `k` on, deleting them changes nothing. */
  lemma {:induction false} DeleteNoChildren(fs: FileSystem, d: nat, k: nat)
    requires k <= SLOTS && NoChildFrom(fs.sb.inodes, d, k)
    ensures DeleteChildren(fs, d, k) == fs
    decreases SLOTS - k
  {
    if k < SLOTS {
      DeleteNoChildren(fs, d, k + 1);
    }
  }

  /** Deleting the name just created restores the bitmap and leaves the
      table as it was, except that the slot the create used is now zero. */
  lemma CreateDeleteRoundTrip(fs: FileSystem, name: seq<Byte>, size: nat)
    requires Valid(fs)
    requires IsCString(name) && |Trim(name)| <= NAME_LEN
    requires size < 128
    requires Create(fs, name, size).Ok?
    ensures var fs1 := Create(fs, name, size).value;
            exists slot :: 0 <= slot < SLOTS && !InUse(fs.sb.inodes[slot]) &&
              Delete(fs1, name) == Ok(FileSystem(Superblock(fs.sb.bitmap, fs.sb.inodes[slot := ZeroInode]), fs.cwd))
  {
    var fs1 := Create(fs, name, size).value;
    var n := Trim(name);
    var slot :| CreatedAt(fs, fs1, slot, n, size);
    FindCreated(fs, fs1, slot, n, size);
    var fs2 := Remove(fs1, slot);
    if size == 0 {
      RemoveCreatedDirectory(fs, fs1, slot, n);
    } else {
      RemoveCreatedFile(fs, fs1, slot, n, size);
    }
  }

  /** The created entry is the one a lookup of its name finds. */
  lemma FindCreated(fs: FileSystem, fs1: FileSystem, slot: nat, n: seq<Byte>, size: nat)
    requires CwdOk(fs) && CreatedAt(fs, fs1, slot, n, size)
    requires forall i :: 0 <= i < SLOTS ==> !Matches(fs.sb.inodes, i, CwdCode(fs), n, false)
    ensures CwdOk(fs1) && FindFrom(fs1.sb.inodes, CwdCode(fs1), n, false, 0) == Some(slot)
  {
    var t, t1 := fs.sb.inodes, fs1.sb.inodes;
    assert NewEntryAt(fs, fs1, t1[slot], n, size);
    assert ParentIndex(t1[slot]) == CwdCode(fs);
    var found := FindFrom(t1, CwdCode(fs1), n, false, 0);
    assert Matches(t1, slot, CwdCode(fs1), n, false);
    if found.value != slot {
      assert Matches(t, found.value, CwdCode(fs), n, false);
    }
  }

  lemma RemoveCreatedDirectory(fs: FileSystem, fs1: FileSystem, slot: nat, n: seq<Byte>)
    requires Valid(fs) && CreatedAt(fs, fs1, slot, n, 0)
    ensures var fs2 := Remove(fs1, slot);
            IsDirectory(fs1.sb.inodes[slot]) &&
            DeleteChildren(fs2, slot, 0) == FileSystem(Superblock(fs.sb.bitmap, fs.sb.inodes[slot := ZeroInode]), fs.cwd)
  {
    var t, t1 := fs.sb.inodes, fs1.sb.inodes;
    assert NewEntryAt(fs, fs1, t1[slot], n, 0);
    var fs2 := Remove(fs1, slot);
    assert fs2.sb.inodes == t[slot := ZeroInode];
    forall j | 0 <= j < SLOTS
      ensures !ChildOf(fs2.sb.inodes, j, slot)
    {
      if j != slot {
        assert SlotRule(t, 6, t[j]);
      }
    }
    DeleteNoChildren(fs2, slot, 0);
  }

  lemma RemoveCreatedFile(fs: FileSystem, fs1: FileSystem, slot: nat, n: seq<Byte>, size: nat)
    requires Valid(fs) && CreatedAt(fs, fs1, slot, n, size) && size > 0
    ensures !IsDirectory(fs1.sb.inodes[slot])
    ensures Remove(fs1, slot) == FileSystem(Superblock(fs.sb.bitmap, fs.sb.inodes[slot := ZeroInode]), fs.cwd)
  {
    var t, t1 := fs.sb.inodes, fs1.sb.inodes;
    var e := t1[slot];
    assert NewEntryAt(fs, fs1, e, n, size);
    var fs2 := Remove(fs1, slot);
    assert fs2.sb.inodes == t[slot := ZeroInode];
    forall b | 0 <= b < BLOCKS
      ensures fs2.sb.bitmap[b] == fs.sb.bitmap[b]
    {
      assert Covers(e, b) ==> FreeBlock(fs.sb.bitmap, b);
    }
  }

  // ---------------------------------------------------------------------
  // Change directory and mount

  /** Stepping into a directory and then to ".." returns to where one was. */
  lemma CdIntoThenUp(fs: FileSystem, name: seq<Byte>)
    requires CwdOk(fs)
    requires name != DOT && name != DOTDOT
    requires Cd(fs, name).Ok?
    ensures CwdOk(Cd(fs, name).value)
    ensures Cd(Cd(fs, name).value, DOTDOT) == Ok(fs)
  {
    var fs' := Cd(fs, name).value;
    assert ParentIndex(fs.sb.inodes[fs'.cwd.index]) == CwdCode(fs);
  }

  /** Changing directory keeps a valid state valid. */
  lemma CdPreservesValid(fs: FileSystem, name: seq<Byte>)
    requires Valid(fs) && CwdOk(fs)
    requires Cd(fs, name).Ok?
    ensures Valid(Cd(fs, name).value)
  {
    if name == DOTDOT && fs.cwd.Slot? {
      assert SlotRule(fs.sb.inodes, 6, fs.sb.inodes[fs.cwd.index]);
    }
  }

  /** A mounted disk is a valid state. */
  lemma MountValid(sb: Superblock)
    requires Mount(sb).Ok?
    ensures Valid(Mount(sb).value)
  {
  }
}

=== FILE: trim.dfy ===
/** Name trimming: strips the bytes of `"\t\n\v\f\r "` from both ends of a
name, as the create and delete operations do before using it. */
module Whitespace {
  import opened Bytes

  /** The six bytes the source treats as white space: tab, line feed,
      vertical tab, form feed, carriage return and blank. */
  predicate IsSpace(c: Byte)
  {
    c == 9 || c == 10 || c == 11 || c == 12 || c == 13 || c == 32
  }

  predicate AllSpace(s: seq<Byte>)
  {
    forall k :: 0 <= k < |s| ==> IsSpace(s[k])
  }

  /** Neither end of `s` is white space. */
  predicate Trimmed(s: seq<Byte>)
  {
    |s| == 0 || (!IsSpace(s[0]) && !IsSpace(s[|s| - 1]))
  }

  /** `find_last_not_of`: the index of the last byte that is not white space,
      or -1 when there is none (`npos + 1` is 0). */
  function LastNotSpace(s: seq<Byte>): (r: int)
    ensures -1 <= r < |s|
    ensures r >= 0 ==> !IsSpace(s[r])
    ensures AllSpace(s[r + 1..])
  {
    if |s| == 0 then -1
    else if !IsSpace(s[|s| - 1]) then |s| - 1
    else LastNotSpace(s[..|s| - 1])
  }

  /** `find_first_not_of`: the index of the first byte that is not white
      space, or `|s|` when there is none (erasing up to `npos` empties the
      string). */
  function FirstNotSpace(s: seq<Byte>): (r: nat)
    ensures r <= |s|
    ensures r < |s| ==> !IsSpace(s[r])
    ensures AllSpace(s[..r])
  {
    if |s| == 0 || !IsSpace(s[0]) then 0
    else 1 + FirstNotSpace(s[1..])
  }

  /** Erases the trailing white space, then the leading white space. */
  function Trim(s: seq<Byte>): (r: seq<Byte>)
    ensures |r| <= |s|
    ensures Trimmed(r)
    ensures exists i :: 0 <= i <= |s| - |r| && r == s[i..i + |r|]
                        && AllSpace(s[..i]) && AllSpace(s[i + |r|..])
  {
    var e := LastNotSpace(s) + 1;
    var t := s[..e];
    var b := FirstNotSpace(t);
    assert e > 0 ==> b < e;
    assert s[..b] == t[..b];
    s[b..e]
  }

  /** Trimming leaves a string with no white space at either end unchanged. */
  lemma TrimIdentity(s: seq<Byte>)
    requires Trimmed(s)
    ensures Trim(s) == s
  {
  }

  /** Trimming twice is trimming once. */
  lemma TrimIdempotent(s: seq<Byte>)
    ensures Trim(Trim(s)) == Trim(s)
  {
    TrimIdentity(Trim(s));
  }

  lemma {:induction false} NoLastNotSpace(s: seq<Byte>)
    requires AllSpace(s)
    ensures LastNotSpace(s) == -1
  {
    if |s| > 0 {
      assert IsSpace(s[|s| - 1]);
      NoLastNotSpace(s[..|s| - 1]);
    }
  }

  /** Trimming gives the empty string exactly when the input is all white
      space. */
  lemma TrimEmpty(s: seq<Byte>)
    ensures Trim(s) == [] <==> AllSpace(s)
  {
    if AllSpace(s) {
      NoLastNotSpace(s);
    }
    if Trim(s) == [] {
      var i :| 0 <= i <= |s| && AllSpace(s[..i]) && AllSpace(s[i..]);
      forall k | 0 <= k < |s|
        ensures IsSpace(s[k])
      {
        if k < i {
          assert s[..i][k] == s[k];
        } else {
          assert s[i..][k - i] == s[k];
        }
      }
    }
  }
}
